=== FILE: README.md ===
# Happenstance restaurant–event pairing, modelled in Dafny

Happenstance pairs events (a show, a match, a family gathering) with nearby
restaurants. The core is a two-phase engine in `happenstance/pairing.py`:

- **Phase A** (`rank_restaurants_for_event`). For every restaurant it:
  - resolves a travel time;
  - computes when to eat (`compute_dining_windows`): a target seat time, a
    preferred window and two labelled fallback windows, which depend on
    whether the meal is before the event, after it, or is the event itself;
  - scores the fit (`score_restaurant_fit`) from a service-style, a
    travel-time and a cuisine sub-score, and drops restaurants that the
    family-style hard filter rejects.

  It then sorts the pending recommendations by (−score, −travel score, id).
- **Phase B** (`apply_availability`) takes the seat times a booking site
  offers for each restaurant. It grades them against the windows (100, 66,
  33 or 0), keeps the three times closest to the target, recomputes the
  score and re-sorts.

The project also models these smaller pure helpers:

- event-window filtering and required-field checks (`happenstance/validate.py`);
- prompt bullets (`happenstance/prompting.py`);
- the dataset meta sentinel (`happenstance/io.py`);
- three helpers of `scripts/aggregate.py`: `extract_domain`, `mark_new` and
  `validate_against_schema`.

Everything is modelled as immutable values and pure functions. Where the
source mutates a dict in place, the model returns the updated record. Where
it raises, the model returns `Failure`/`None`.

## Modules

| file | module | contents |
|---|---|---|
| `wrappers.dfy` | `Wrappers` | `Option`, `Result` |
| `text.dfy` | `Text` | ASCII case mapping, substring search and `Find`, decimal integers (`str`/`int`), `split` on one character, Python's string order |
| `seqs.dfy` | `Seqs` | order-preserving `Filter` and its multiplicities, `Map`, the sub-sequence relation |
| `stable_sort.dfy` | `StableSort` | a stable insertion sort by any strict weak order (the model of Python's `sorted`/`list.sort`), and taking the first *n* of it |
| `clock.dfy` | `Clock` | rounding up to 5 minutes, `HH:MM` formatting and parsing |
| `pairing_types.dfy` | `PairingTypes` | events, restaurants, configuration, score breakdowns, windows, recommendations |
| `dining.dfy` | `Dining` | `compute_dining_windows` |
| `fit.dfy` | `Fit` | `_is_family_style_event`, `score_restaurant_fit` |
| `availability.dfy` | `Availability` | `_time_in_window`, `_closest_to_target`, `apply_availability` |
| `ranking.dfy` | `Ranking` | `rank_restaurants_for_event` |
| `validate.dfy` | `Validate` | `filter_events_by_window`, `require_fields` |
| `prompting.dfy` | `Prompting` | `build_gap_bullets`, `month_spread_guidance` |
| `json.dfy` | `Json` | decoded JSON values and Python truthiness |
| `json_io.dfy` | `JsonIo` | `append_meta`, and the loader that strips the sentinel |
| `aggregate_helpers.dfy` | `AggregateHelpers` | `extract_domain`, `mark_new`, `validate_against_schema` |

### How things are represented

- **Timestamps.** A timestamp is a whole number of minutes in the
  timestamp's own UTC offset. `_ceil_to_5_minutes` looks only at the minute,
  and `HH:MM` drops seconds, so seconds never matter. Writing a timestamp as
  `HH:MM` is `MinutesToTimeStr(t % 1440)`. The validation module uses
  absolute instants in microseconds instead.
- **Numbers.** Scores and weights are Python floats. The model uses exact
  reals.
- **Travel distance.** The distance between two locations is a parameter
  (`distance`). Only `int(distance / speed * 60)` is modelled, as truncation
  toward zero.

### Behaviour of the code worth knowing

These follow from the code as written. The model keeps the code's behaviour,
and each point has a lemma that exhibits it.

- **The travel-time sub-score is not monotone.** It steps down from 100 (up
  to 10 minutes) to 85 (up to 15), 70 (up to 20) and 50 (up to 25). From 26
  minutes it is `100 − 3·(minutes − 25)`, floored at 0, so 26 minutes scores
  97 and 59 minutes or more scores 0 (`Fit.TravelScoreNotMonotone`).
  It is monotone on each side of that step (`Fit.TravelScoreMonotoneNear`,
  `Fit.TravelScoreMonotoneFar`).
- **The before-event target can be late.** The target is rounded *up* to a
  5-minute mark, so a meal seated at the target can end up to 4 minutes after
  the latest finish that still reaches the event in time
  (`Dining.BeforeEventPlan`, `Dining.BeforeEventTargetCanOverrun`).
- **The "Later seating" clamp always fires.** Its condition
  (`pairing.py:218`) always holds (`Dining.LaterClampAlwaysApplies`). So the
  "Later seating" window always ends `meal + 15` minutes before the latest
  finish, which is before the target, and starts before the preferred window
  (`Dining.LaterSeatingPrecedesTarget`).
- **Fallbacks are used by position, not by label.** Phase B uses
  `fallbacks[0]` for 66 and `fallbacks[1]` for 33
  (`Availability.GradeFollowsWindows`). `fallbacks[0]` is
  "Earlier seating" before an event but "Later seating" otherwise
  (`Dining.ComputeDiningWindows`).
- **When the meal is the event the windows are fixed.** They do not depend on
  the event's time at all: 17:30 within 17:00–18:30 with children, 18:30
  within 18:00–19:30 without (`Dining.FixedWindowsMinutes`).
- **The cuisine test is exact membership of a lower-cased tag**
  (`pairing.py:449,453,457`), not a substring test. The event-type test *is*
  a substring test. Only the first matching event-type branch is tried
  (`Fit.CuisineScore`, `Fit.CuisineIsExactMembership`).

## Model

| member | source | states |
|---|---|---|
| `Clock.Ceil5` | happenstance/pairing.py:136-143 | the rounded time is a multiple of 5 and lies in `[m, m + 5)`, so seconds-free times already on a mark are unchanged |
| `Clock.Ceil5IsLeast` | happenstance/pairing.py:136-143 | no multiple of 5 at or above the input is smaller than the rounded time |
| `Clock.Ceil5Monotone` | happenstance/pairing.py:136-143 | rounding up preserves order |
| `Clock.Ceil5Shift` | happenstance/pairing.py:136-143 | shifting the input by a multiple of 5 shifts the result by the same amount |
| `Clock.ParseTimeToMinutes` | happenstance/pairing.py:151-154 | a text without a colon does not parse |
| `Clock.ParseTimeOfParts` | happenstance/pairing.py:151-154 | `h:m` reads as `h * 60 + m` when both halves are integers, and does not parse otherwise |
| `Clock.ParseTimeIgnoresExtraParts` | happenstance/pairing.py:151-154 | whatever follows a second colon is ignored |
| `Clock.ClockTextValue` | happenstance/pairing.py:151-154 | a zero-padded `HH:MM` text parses to its hours times 60 plus its minutes |
| `Clock.MinutesToTimeStr` | happenstance/pairing.py:157-161 | the text parses back to the same minutes for every integer, negative ones included; from 0 to 99:59 it is zero-padded `HH:MM`: two digits of hours, a colon, two digits of minutes, reading `minutes // 60` and `minutes % 60` |
| `Clock.FormatClock` | happenstance/pairing.py:146-148 | a timestamp is written as zero-padded 24-hour `HH:MM`: two digits giving the hour of its day (00 to 23), a colon, two digits giving the minute (00 to 59); the text parses back to its minute of the day |
| `Clock.ShowsMinuteOfDayUnique` | happenstance/pairing.py:146-148 | only one text is the zero-padded `HH:MM` of a given minute of the day, so the written form is fixed |
| `Clock.FormatClockExample` | happenstance/pairing.py:146-148 | 307 minutes into the day is written "05:07" |
| `Dining.IntentOf` | happenstance/pairing.py:186-198 | a missing intent means before the event; only the exact strings select the before/after branches, and every other value selects the fixed windows |
| `Dining.BeforeEventPlan` | happenstance/pairing.py:198-221 | the target is on a 5-minute mark and its meal ends 0 to 4 minutes after the latest finish; preferred is target ± 30; "Earlier seating" is preferred moved 60 minutes earlier; "Later seating" ends `meal + 15` before the latest finish and lasts an hour |
| `Dining.LaterClampAlwaysApplies` | happenstance/pairing.py:214-220 | the clamp condition holds for every input |
| `Dining.LaterSeatingPrecedesTarget` | happenstance/pairing.py:214-221 | "Later seating" ends at least 15 minutes before the target and starts before the preferred window |
| `Dining.BeforeEventTargetCanOverrun` | happenstance/pairing.py:198-204 | an input where the rounded target ends the meal 4 minutes after the latest finish |
| `Dining.LongerBufferSeatsEarlier` | happenstance/pairing.py:190-204 | a longer pre-buffer never gives a later target, and moves it by exactly the difference when that is a multiple of 5 |
| `Dining.KidsSeatEarlierBeforeEvent` | happenstance/pairing.py:190-204 | before an event, `hasKids` never makes the target later; with the default buffers it is exactly 5 minutes earlier |
| `Dining.AfterEventPlan` | happenstance/pairing.py:242-268 | the earliest seat is the first 5-minute mark at or after end + exit + travel + pre-buffer; preferred is an hour from it; "Later seating" is the next hour; "Earlier seating" starts at the later of 30 minutes before the seat and the end plus the pre-buffer, and lasts an hour |
| `Dining.KidsSeatLaterAfterEvent` | happenstance/pairing.py:242-256 | after an event, a longer pre-buffer (as with kids) never gives an earlier seat |
| `Dining.ComputeDiningWindows` | happenstance/pairing.py:164-328 | two fallbacks; every written time is a two-digit, colon, two-digit text that parses; for the timed intents each of the target, the preferred bounds and the fallback bounds is the zero-padded 24-hour `HH:MM` of the plan's minute of the day and parses back to it; when the meal is the event, the fixed windows for the `hasKids` flag; fallbacks "Earlier", "Later" before the event and "Later", "Earlier" otherwise |
| `Dining.FormatPlan` | happenstance/pairing.py:146-148 | each written time is the zero-padded 24-hour `HH:MM` of its timestamp's minute of the day and parses back to it, and the fallback labels are kept in order |
| `Dining.MealIsEventWindows` | happenstance/pairing.py:290-328 | two fallbacks, "Later seating" then "Earlier seating" |
| `Dining.FixedWindowsMinutes` | happenstance/pairing.py:290-328 | every fixed time is a zero-padded `HH:MM` text; in minutes of the day: target 17:30 in 17:00–18:30, "Later" 18:30–20:00, "Earlier" 16:00–17:00 with children; 18:30 in 18:00–19:30, 19:30–20:30, 17:00–18:00 without |
| `Dining.KidsDineAnHourEarlier` | happenstance/pairing.py:293-308 | with children the fixed target and the start of every fixed window are 60 minutes earlier |
| `Dining.FixedWindowsReadable` | happenstance/pairing.py:290-328 | the fixed windows used when the meal is the event are all readable times |
| `Dining.BeforeEventExample` | happenstance/pairing.py:198-240 | with default settings, 15 minutes of travel and no kids, the target is 115 minutes before the start and the preferred window spans 145 to 85 minutes before it |
| `Dining.AfterEventExample` | happenstance/pairing.py:242-288 | with default settings and 15 minutes of travel, the seat is 40 minutes after an event ending on a 5-minute mark |
| `Fit.IsFamilyStyleEvent` | happenstance/pairing.py:331-340 | an event whose upper-cased type contains "FAMILY", a party of six or more, or a party of four or more with children, is a family-style event; without "FAMILY" in the type, a party under four is not, nor is a party under six without children |
| `Fit.FamilyTypeExcludesOtherService` | happenstance/pairing.py:376-391 | with the family-style requirement on, an event whose type mentions "FAMILY" in any case is excluded, whatever the party, from any restaurant without `family_style`/`share_plates`: total 0 and the one exclusion reason |
| `Fit.LargePartyExcludesOtherService` | happenstance/pairing.py:376-391 | with the family-style requirement on, a party of six or more is excluded from any restaurant without `family_style`/`share_plates`: total 0 and the one exclusion reason |
| `Fit.FamilyStyleNeverFiltered` | happenstance/pairing.py:376-391 | a restaurant tagged `family_style` or `share_plates` is never excluded |
| `Fit.GroupBonus` | happenstance/pairing.py:407-422 | the group bonus is between 0 and 20; it is 0 exactly when no signal applies; at most three reasons |
| `Fit.ServiceStyleScore` | happenstance/pairing.py:392-422 | the service score is between 10 and 100; the soft penalty gives exactly 10 with its one reason; otherwise it is the base plus at most 20, and at least 90 exactly when family style is both needed and offered |
| `Fit.MoreSignalsNeverLowerService` | happenstance/pairing.py:407-422 | adding group signals never lowers the service score |
| `Fit.TravelTimeScore` | happenstance/pairing.py:424-440 | the travel score is in [0, 100]; it is 100 exactly up to 10 minutes and 0 exactly from 59 minutes; one reason when positive |
| `Fit.TravelScoreMonotoneNear` | happenstance/pairing.py:424-440 | up to 25 minutes, more travel never scores higher |
| `Fit.TravelScoreMonotoneFar` | happenstance/pairing.py:424-440 | from 26 minutes on, more travel never scores higher |
| `Fit.TravelScoreNotMonotone` | happenstance/pairing.py:424-440 | 25 minutes scores 50 but 26 minutes scores 97 |
| `Fit.CuisineScore` | happenstance/pairing.py:442-461 | the cuisine score is 50, 80 or 85; 85 exactly for a non-show family event with a family cuisine tag; 80 exactly for a show with a show cuisine, or a sports event with a sports cuisine |
| `Fit.CuisineIgnoresTagCase` | happenstance/pairing.py:442-461 | the cuisine score depends only on the lower-cased tags |
| `Fit.CuisineIsExactMembership` | happenstance/pairing.py:447-461 | a tag longer than every listed cuisine never earns a bonus, even when it contains one |
| `Fit.ScoreRestaurantFit` | happenstance/pairing.py:343-479 | excluded exactly when the hard filter applies, with a zero result and one reason; otherwise the sub-scores, the availability placeholder 0, the weighted total and the concatenated reasons; normalized weights keep the total in [0, 100] |
| `Fit.VeryCloseScoresHighest` | happenstance/pairing.py:424-472 | with everything else equal, a restaurant within 10 minutes never totals less than a farther one, and strictly more when the farther one is over 10 minutes away and travel has positive weight |
| `PairingTypes.WeightedTotalInRange` | happenstance/pairing.py:463-472 | sub-scores in [0, 100] and non-negative weights summing to 1 give a total in [0, 100] |
| `Availability.InWindow` | happenstance/pairing.py:482-487 | both ends of a window are included, and a window whose end reads before its start contains nothing |
| `Availability.ParseSlots` | happenstance/pairing.py:482-487 | the offered times are read exactly when every one parses, each keeping its text |
| `Availability.GradeSlots` | happenstance/pairing.py:559-590 | the fit is 100, 66, 33 or 0, chosen by the first window (preferred, `fallbacks[0]`, `fallbacks[1]`) holding an offered time; the pool is exactly that window's times in offer order, or every time at 0 |
| `Availability.MoreTimesNeverLowerGrade` | happenstance/pairing.py:559-590 | offering more times never lowers the availability fit |
| `Availability.ClosestToTarget` | happenstance/pairing.py:490-495 | at most three times, drawn from the input, in non-decreasing distance from the target; no time left out is closer than one chosen; ties keep their input order |
| `Availability.UpdateRecommendation` | happenstance/pairing.py:534-606 | it fails exactly when some offered time, window bound or the target does not parse; otherwise the record is no longer pending, only the availability sub-score changes, the score is recomputed, and at most three offered times are chosen (none exactly when none are offered, with fit 0) |
| `Availability.GradeFollowsWindows` | happenstance/pairing.py:559-590 | for a readable offer: 100 exactly when a time falls in the preferred window; else 66 exactly when one falls in `fallbacks[0]`; else 33 exactly when one falls in `fallbacks[1]`; else 0 |
| `Availability.UpdateChoosesClosest` | happenstance/pairing.py:578-606 | the recommended times are the winning window's (every offered time at 0): at most three, drawn from it, nearest the target first, none left out nearer, the earliest offered of equally near ones |
| `Availability.UpdateIsIdempotent` | happenstance/pairing.py:534-606 | grading a graded recommendation again with the same times changes nothing |
| `Availability.LookupPayload` | happenstance/pairing.py:520-522 | a payload is found exactly when one names the restaurant, and it is the last such one |
| `Availability.UpdateAll` | happenstance/pairing.py:524-606 | all recommendations are updated, one for one, or the first failure is raised |
| `Availability.RankLessIsStrictWeakOrder` | happenstance/pairing.py:608-615 | the (−score, −travel score, id) order is a strict weak order, so the sort is well defined |
| `Availability.RankTiesShareId` | happenstance/pairing.py:608-615 | two records the order cannot separate have the same id |
| `Availability.ApplyAvailability` | happenstance/pairing.py:498-617 | the result is the updated recommendations, re-sorted by (−score, −travel score, id), with the same multiset of ids |
| `Availability.UnmatchedUnchanged` | happenstance/pairing.py:529-532 | a recommendation without a payload comes back unchanged |
| `Availability.ApplyAvailabilityIsIdempotent` | happenstance/pairing.py:498-617 | applying the same payloads twice gives the same records in the same order |
| `StableSort.SortByStable` | happenstance/pairing.py:490-495 | Python's sort is stable: records the order cannot separate keep their input order |
| `Ranking.TruncToInt` | happenstance/pairing.py:667 | `int()` of a float truncates toward zero |
| `Ranking.ResolveTravelTime` | happenstance/pairing.py:655-670 | the map value when present; 20 when a location is missing; otherwise the truncated distance estimate, failing exactly on a zero speed |
| `Ranking.Assess` | happenstance/pairing.py:651-697 | one restaurant fails exactly when its travel time fails; it is dropped exactly when hard-filtered; otherwise it becomes a pending recommendation with no chosen times, availability 0, the weighted score and readable windows |
| `Ranking.AssessRecommends` | happenstance/pairing.py:672-697 | the recommendation carries the computed windows, target, score, breakdown and reasons |
| `Ranking.Candidates` | happenstance/pairing.py:651-697 | Phase A fails exactly when some travel time fails (a zero speed); otherwise, for each restaurant that passes the hard filter and in input order, it yields exactly the fresh recommendation `Assess` builds for it |
| `Ranking.AdmittedFrom` | happenstance/pairing.py:678-680 | the positions of the restaurants the hard filter lets through, all of them, in increasing order |
| `Ranking.Gather` | happenstance/pairing.py:651-697 | the loop stops at the first failing step with its error; otherwise it yields the present results in order, exactly at the admitted positions |
| `Ranking.CandidatesAreAdmitted` | happenstance/pairing.py:678-680 | every recommendation comes from a restaurant that is not hard-filtered |
| `Ranking.CandidatesCoverAdmitted` | happenstance/pairing.py:678-697 | every restaurant that is not hard-filtered is recommended |
| `Ranking.RankRestaurantsForEvent` | happenstance/pairing.py:620-712 | it fails when Phase A fails; the result is sorted by (−score, −travel score, id); without payloads it holds exactly Phase A's records (as a multiset), all fresh, and fails only on a zero speed; with payloads it succeeds exactly when updating Phase A's records succeeds and holds exactly the updated records |
| `Ranking.PhaseANeverFails` | happenstance/pairing.py:651-706 | with a non-zero speed and no payloads the ranking succeeds |
| `Ranking.PhaseBFailsOnlyOnOfferedTimes` | happenstance/pairing.py:708-710 | with a non-zero speed, Phase B can fail only on an offered time that does not parse |
| `Validate.FilterEventsByWindow` | happenstance/validate.py:7-29 | the kept events are a sub-sequence of the input; each has a date in `[now, now + days]`, both ends included; every dated event in that range is kept, as many times as it occurs |
| `Validate.UndatedEventsDropped` | happenstance/validate.py:16-24 | events whose date is missing, empty or does not parse are dropped |
| `Validate.NaiveMeansUtc` | happenstance/validate.py:19-26 | a date without an offset is filtered exactly like the same time in UTC |
| `Validate.NegativeWindowKeepsNothing` | happenstance/validate.py:12-27 | a negative number of days keeps nothing |
| `Validate.FilterTwiceIsFilterOnce` | happenstance/validate.py:14-29 | filtering the result again changes nothing |
| `Validate.Label` | happenstance/validate.py:36 | the label is the truthy `name`, else the truthy `title`, else "unknown" |
| `Validate.RequireFields` | happenstance/validate.py:32-37 | it raises exactly when some item lacks a required key; the error names the first such item, its label and its missing keys (at least one) |
| `Validate.MissingKeysAreExact` | happenstance/validate.py:34-35 | the reported keys are exactly the required keys the item lacks, in their order; there are none exactly when the item has them all |
| `Prompting.BuildGapBullets` | happenstance/prompting.py:4-10 | `min(limit, n)` bullets (none when `limit <= 0`), bullet *i* asking about category *i* |
| `Prompting.BulletItemRoundTrip` | happenstance/prompting.py:9 | the category can be read back from its bullet |
| `Prompting.BulletInjective` | happenstance/prompting.py:9 | different categories give different bullets |
| `Prompting.MonthSpreadGuidance` | happenstance/prompting.py:13-14 | the fixed sentence with the month count in the middle, which reads back as the count |
| `Prompting.BuildGapBulletsByDefault` | happenstance/prompting.py:4-10 | with the default limit, bullets for the first three categories, or all of them when there are fewer |
| `Prompting.MonthSpreadGuidanceByDefault` | happenstance/prompting.py:13-14 | with the default, the sentence asks for a two-month spread |
| `JsonIo.AppendMeta` | happenstance/io.py:25-28 | one element longer; the items first and unchanged; last an object whose only key is `_meta`, holding the meta value |
| `JsonIo.LoadExisting` | scripts/aggregate.py:401-412 | a document that is not a list loads as no items; a list loads as itself, less its last element exactly when that is a `_meta` sentinel |
| `JsonIo.LoadAfterAppend` | scripts/aggregate.py:401-412 | loading a dataset written with its sentinel gives back exactly the items |
| `AggregateHelpers.ExtractDomain` | scripts/aggregate.py:270-273 | `""` for a non-string or a string without `://`; otherwise the lower-cased text from the first `://` up to the next `/` or the end, which holds no `/` |
| `AggregateHelpers.ExtractDomainOfLink` | scripts/aggregate.py:270-273 | `scheme://host/path` gives back the lower-cased host |
| `AggregateHelpers.KeyOf` | scripts/aggregate.py:416-427 | an item's key is its lower-cased key fields, missing ones as `""`; it cannot be built exactly when a key field holds a non-string |
| `AggregateHelpers.ExistingKeys` | scripts/aggregate.py:416-422 | the key set holds exactly the keys of the existing items, and building it fails exactly when one of them cannot be built |
| `AggregateHelpers.NotInKeysIsNew` | scripts/aggregate.py:416-428 | an item is new exactly when its key matches no existing item's key |
| `AggregateHelpers.MarkItemSpec` | scripts/aggregate.py:423-434 | one item fails exactly when its key cannot be built, or it is new and the badge table is not an object; otherwise `is_new` is set, a new item gets the configured badge or "New", an old one keeps its badge or gets "", and nothing else changes |
| `AggregateHelpers.MarkNew` | scripts/aggregate.py:415-434 | fails when the existing keys cannot be built; otherwise each item is marked against that key set, one for one |
| `AggregateHelpers.MarkNewSpec` | scripts/aggregate.py:415-434 | `mark_new` fails exactly when the existing keys or some item fail, and otherwise marks every item as above |
| `AggregateHelpers.OwnItemsAreNotNew` | scripts/aggregate.py:416-428 | an item is never new against a dataset that contains it |
| `AggregateHelpers.MarkedKeepsKey` | scripts/aggregate.py:424-434 | marking never changes an item's key |
| `AggregateHelpers.MarkNewIsIdempotent` | scripts/aggregate.py:415-434 | marking the marked items again against the same dataset changes nothing |
| `AggregateHelpers.ValidateAgainstSchema` | scripts/aggregate.py:437-458 | the kept items are a sub-sequence of the input; each is an object with every required key whose declared string and boolean properties, where present, have that type; every conforming item is kept, as many times as it occurs |
| `AggregateHelpers.ValidateIsIdempotent` | scripts/aggregate.py:441-458 | validating the result again changes nothing |
| `AggregateHelpers.ValidateDropsNonConforming` | scripts/aggregate.py:443-446 | non-objects and objects missing a required key are dropped |

## Left out

- `_haversine_distance` (`pairing.py:715-735`) is floating-point
  trigonometry. The distance is a parameter of the orchestrator.
- Parsing ISO-8601 text with `datetime.fromisoformat` is not modelled.
  Events carry already-parsed timestamps, and `filter_events_by_window`
  receives each date already classified as missing, unparseable, naive or
  with an offset.
- The current-time defaults (`now or datetime.now(...)`) and the
  `config is None` defaults: the model takes `now` and the configuration as
  arguments (`DefaultConfig` is the default configuration).
- Python floats are exact reals in the model, so rounding in the weighted
  total, and ties that rounding would create or break in the sort, are not
  modelled.
- Text.Lower, Text.Upper: only ASCII letters change case. Python's
  `str.lower`/`str.upper` also map other scripts.
- Text.ParseInt: accepts an optional sign and ASCII digits. Python's
  `int()` also accepts surrounding whitespace, `_` separators and non-ASCII
  digits.
- The three configuration fields no formula reads (the travel-time caps, the
  big-venue exit buffer and the "nice" meal duration) are not modelled.
- `_minutes_to_time_str` is modelled (`Clock.MinutesToTimeStr`), though no
  code path of the engine calls it.
- In-place mutation before an exception: where the source raises halfway
  through `apply_availability` or `mark_new`, the records it already changed
  stay changed. The model reports only the failure.
- Field values of the wrong JSON type in events, restaurants and
  recommendations (a non-list tag field, a non-numeric party size) would
  raise a `TypeError`. The records are typed, so these inputs cannot be
  expressed. A null value and a missing key are not distinguished where
  `.get` treats them alike.
- Ranking.ResolveTravelTime: the travel-time map holds integers. An entry
  whose value is `None`, which the source treats like a missing one, cannot
  be written.
- Ranking.RankRestaurantsForEvent: with payloads, the contract does not
  name which error Phase B raises. `Ranking.PhaseBFailsOnlyOnOfferedTimes`
  bounds when it can.
- Dining.IntentOf: a `mealIntent` that is present but JSON `null` is read by
  `.get` as `None`, which is neither timed intent, so the source gives it the
  fixed windows. The model's optional field cannot tell null from a missing
  key, and a missing key means before the event.
- The schema document read by `validate_against_schema` is taken already
  digested into its required keys and declared property types. A schema
  whose `items` entry is not an object, or whose property specs are not
  objects, would raise. The model does not cover those schemas.
- `mark_new`: dictionary key order is not modelled (objects are maps), so
  the position where `is_new` and `badge` appear in the written JSON is not
  stated.
- `read_json`, `write_json` and `docs_path` in `happenstance/io.py`, and the
  file access in `load_existing`, are I/O and are not modelled.
- `whyMatched` reason strings are carried through, but nothing is proved
  about their wording.

=== FILE: aggregate_helpers.dfy ===
/** The pure list and string helpers of the aggregation script
    (scripts/aggregate.py): the host of a link, marking items that were not in
    the previous dataset, and the lightweight schema filter. */
module AggregateHelpers {
  import opened Wrappers
  import opened Text
  import opened Seqs
  import opened Json

  // ----------------------------------------------------------- extract_domain

  /** `extract_domain`: for a string holding `://`, the lower-cased text
      between the first `://` and the next `/`; `""` for anything else. */
  function ExtractDomain(url: Value): (r: string)
    ensures !url.Str? || !Contains(url.s, "://") ==> r == ""
    ensures '/' !in r
    ensures url.Str? && Contains(url.s, "://") ==>
              var rest := url.s[Find(url.s, "://").value + 3..];
              && |r| <= |rest|
              && r == Lower(rest[..|r|])
              && (|r| == |rest| || rest[|r|] == '/')
  {
    if !url.Str? then ""
    else
      match Find(url.s, "://")
      case None => ""
      case Some(i) =>
        var rest := url.s[i + 3..];
        SplitHead(rest, '/');
        Lower(Split(rest, '/')[0])
  }

  /** The first `://` of a link whose scheme holds no colon is the one right
      after the scheme. */
  lemma FindAfterScheme(scheme: string, rest: string)
    requires ':' !in scheme
    ensures Find(scheme + "://" + rest, "://") == Some(|scheme|)
  {
    var s := scheme + "://" + rest;
    assert s[|scheme|..|scheme| + 3] == "://";
    assert OccursAt(s, "://", |scheme|);
    forall j | 0 <= j < |scheme|
      ensures !OccursAt(s, "://", j)
    {
      assert s[j] == scheme[j];
    }
  }

  /** A link built from a scheme, a host and a path reads back as the host,
      lower-cased. */
  lemma ExtractDomainOfLink(scheme: string, host: string, path: string)
    requires ':' !in scheme && '/' !in host
    requires path == [] || path[0] == '/'
    ensures ExtractDomain(Str(scheme + "://" + host + path)) == Lower(host)
  {
    var s := scheme + "://" + host + path;
    FindAfterScheme(scheme, host + path);
    assert s == scheme + "://" + (host + path);
    var rest := s[|scheme| + 3..];
    assert rest == host + path;
    if path == [] {
      assert rest == host;
      SplitWithoutSeparator(host, '/');
    } else {
      assert rest == host + ['/'] + path[1..];
      SplitAtFirstSeparator(host, '/', path[1..]);
    }
  }

  // ----------------------------------------------------------------- mark_new

  /** The keys that identify an item: name and address for restaurants, name,
      venue and date for events (any other `kind`). */
  function KeyFields(kind: string): seq<string> {
    if kind == "restaurants" then ["name", "address"] else ["name", "venue", "date"]
  }

  /** `item.get(f, '').lower()` for each key field, or `None` when some field
      holds a non-string, on which `.lower()` raises. */
  function KeyOf(item: map<string, Value>, fields: seq<string>): (k: Option<seq<string>>)
    ensures k.Some? <==> forall i :: 0 <= i < |fields| ==> fields[i] !in item || item[fields[i]].Str?
    ensures k.Some? ==> |k.value| == |fields|
    ensures k.Some? ==> forall i :: 0 <= i < |fields| ==>
              k.value[i] == (if fields[i] in item then Lower(item[fields[i]].s) else "")
    decreases |fields|
  {
    if |fields| == 0 then Some([])
    else
      var f := fields[0];
      if f in item && !item[f].Str? then None
      else
        match KeyOf(item, fields[1..])
        case None => None
        case Some(rest) => Some([if f in item then Lower(item[f].s) else ""] + rest)
  }

  function Key(item: map<string, Value>, kind: string): Option<seq<string>> {
    KeyOf(item, KeyFields(kind))
  }

  /** The set `existing_keys`, or `None` when building it raises. */
  function ExistingKeys(existing: seq<map<string, Value>>, kind: string): (r: Option<set<seq<string>>>)
    ensures r.Some? <==> forall j :: 0 <= j < |existing| ==> Key(existing[j], kind).Some?
    ensures r.Some? ==> forall j :: 0 <= j < |existing| ==> Key(existing[j], kind).value in r.value
    ensures r.Some? ==> forall k :: k in r.value ==> exists j :: 0 <= j < |existing| && Key(existing[j], kind) == Some(k)
    decreases |existing|
  {
    if |existing| == 0 then Some({})
    else
      match Key(existing[0], kind)
      case None => None
      case Some(k) =>
        match ExistingKeys(existing[1..], kind)
        case None => None
        case Some(rest) => Some({k} + rest)
  }

  /** The item matches no item of the previous dataset. */
  predicate IsNew(item: map<string, Value>, existing: seq<map<string, Value>>, kind: string) {
    forall j :: 0 <= j < |existing| ==> Key(existing[j], kind) != Key(item, kind)
  }

  function BadgeKey(kind: string): string {
    if kind == "restaurants" then "new_restaurant" else "new_event"
  }

  /** `branding.get('badges', {}).get(badge_key, 'New')`, or `None` when the
      `badges` entry is not an object and has no `.get`. */
  function NewBadge(branding: map<string, Value>, kind: string): Option<Value> {
    var badges := if "badges" in branding then branding["badges"] else Obj(map[]);
    if !badges.Obj? then None
    else if BadgeKey(kind) in badges.fields then Some(badges.fields[BadgeKey(kind)])
    else Some(Str("New"))
  }

  /** The updates `mark_new` makes to one item. */
  function MarkOne(item: map<string, Value>, isNew: bool, badge: Option<Value>): Option<map<string, Value>> {
    var marked := item["is_new" := Bool(isNew)];
    if isNew then
      match badge
      case None => None
      case Some(b) => Some(marked["badge" := b])
    else if "badge" in marked then Some(marked)
    else Some(marked["badge" := Str("")])
  }

  /** One item as `mark_new` leaves it, given the set of existing keys. */
  function MarkItem(item: map<string, Value>, keys: set<seq<string>>, kind: string, branding: map<string, Value>)
    : Option<map<string, Value>>
  {
    match Key(item, kind)
    case None => None
    case Some(k) => MarkOne(item, k !in keys, NewBadge(branding, kind))
  }

  /** All the values, or `None` when one is missing: a loop that stops at the
      first exception. */
  function AllSome<T>(xs: seq<Option<T>>): (r: Option<seq<T>>)
    ensures r.None? <==> exists i :: 0 <= i < |xs| && xs[i].None?
    ensures r.Some? ==> |r.value| == |xs| && forall i :: 0 <= i < |xs| ==> xs[i] == Some(r.value[i])
    decreases |xs|
  {
    if |xs| == 0 then Some([])
    else if xs[0].None? then None
    else
      match AllSome(xs[1..])
      case None => None
      case Some(rest) => Some([xs[0].value] + rest)
  }

  /** `mark_new`, returning the updated items instead of changing them in
      place; `None` when the source raises. */
  function MarkNew(items: seq<map<string, Value>>, existing: seq<map<string, Value>>, kind: string,
                   branding: map<string, Value>): (r: Option<seq<map<string, Value>>>)
    ensures ExistingKeys(existing, kind).None? ==> r.None?
    ensures r.Some? ==> |r.value| == |items|
    ensures r.Some? ==> forall i :: 0 <= i < |items| ==>
              Some(r.value[i]) == MarkItem(items[i], ExistingKeys(existing, kind).value, kind, branding)
  {
    match ExistingKeys(existing, kind)
    case None => None
    case Some(keys) => AllSome(seq(|items|, i requires 0 <= i < |items| => MarkItem(items[i], keys, kind, branding)))
  }

  /** The key-set test is the item-by-item comparison `IsNew`. */
  lemma NotInKeysIsNew(item: map<string, Value>, existing: seq<map<string, Value>>, kind: string)
    requires ExistingKeys(existing, kind).Some? && Key(item, kind).Some?
    ensures Key(item, kind).value !in ExistingKeys(existing, kind).value <==> IsNew(item, existing, kind)
  {
  }

  /** Marking raises on this item. */
  predicate Fails(item: map<string, Value>, existing: seq<map<string, Value>>, kind: string, branding: map<string, Value>) {
    Key(item, kind).None? || (IsNew(item, existing, kind) && NewBadge(branding, kind).None?)
  }

  /** `after` is `before` as `mark_new` leaves it. */
  predicate Marked(before: map<string, Value>, after: map<string, Value>, existing: seq<map<string, Value>>,
                   kind: string, branding: map<string, Value>) {
    && "is_new" in after
    && after["is_new"] == Bool(IsNew(before, existing, kind))
    && "badge" in after
    && (IsNew(before, existing, kind) ==> NewBadge(branding, kind) == Some(after["badge"]))
    && (!IsNew(before, existing, kind) ==>
          after["badge"] == if "badge" in before then before["badge"] else Str(""))
    && after.Keys - {"is_new", "badge"} == before.Keys - {"is_new", "badge"}
    && (forall k :: k in before && k != "is_new" && k != "badge" ==> k in after && after[k] == before[k])
  }

  /** One item: marking it raises exactly when a key field is not a string or,
      for a new item, the badge table is not an object; otherwise `is_new`
      says whether the item is new, a new item gets the configured badge
      ("New" by default), an old one keeps its badge or gets "", and every
      other key is left as it was. */
  lemma MarkItemSpec(item: map<string, Value>, existing: seq<map<string, Value>>,
                     kind: string, branding: map<string, Value>)
    requires ExistingKeys(existing, kind).Some?
    ensures var m := MarkItem(item, ExistingKeys(existing, kind).value, kind, branding);
      && (m.None? <==> Fails(item, existing, kind, branding))
      && (m.Some? ==> Marked(item, m.value, existing, kind, branding))
  {
    if Key(item, kind).Some? {
      NotInKeysIsNew(item, existing, kind);
      MarkOneSpec(item, IsNew(item, existing, kind), NewBadge(branding, kind));
    }
  }

  /** The updates to one item, once its newness is known. */
  lemma MarkOneSpec(item: map<string, Value>, isNew: bool, badge: Option<Value>)
    ensures MarkOne(item, isNew, badge).None? <==> isNew && badge.None?
    ensures MarkOne(item, isNew, badge).Some? ==>
              var m := MarkOne(item, isNew, badge).value;
              && "is_new" in m && m["is_new"] == Bool(isNew)
              && "badge" in m
              && (isNew ==> badge == Some(m["badge"]))
              && (!isNew ==> m["badge"] == if "badge" in item then item["badge"] else Str(""))
              && m.Keys - {"is_new", "badge"} == item.Keys - {"is_new", "badge"}
              && (forall k :: k in item && k != "is_new" && k != "badge" ==> k in m && m[k] == item[k])
  {
  }

  /** The whole of `mark_new`: it raises exactly when building the existing
      keys raises or some item fails, and otherwise marks every item. */
  lemma MarkNewSpec(items: seq<map<string, Value>>, existing: seq<map<string, Value>>,
                    kind: string, branding: map<string, Value>)
    ensures var r := MarkNew(items, existing, kind, branding);
      && (r.None? <==> ExistingKeys(existing, kind).None?
                       || exists i :: 0 <= i < |items| && Fails(items[i], existing, kind, branding))
      && (r.Some? ==> |r.value| == |items|)
      && (r.Some? ==> forall i :: 0 <= i < |items| ==> Marked(items[i], r.value[i], existing, kind, branding))
  {
    if ExistingKeys(existing, kind).Some? {
      var keys := ExistingKeys(existing, kind).value;
      var xs := seq(|items|, i requires 0 <= i < |items| => MarkItem(items[i], keys, kind, branding));
      forall i | 0 <= i < |items|
        ensures xs[i].None? <==> Fails(items[i], existing, kind, branding)
        ensures xs[i].Some? ==> Marked(items[i], xs[i].value, existing, kind, branding)
      {
        MarkItemSpec(items[i], existing, kind, branding);
      }
    }
  }

  /** An item is never new against a dataset it belongs to. */
  lemma OwnItemsAreNotNew(existing: seq<map<string, Value>>, kind: string, j: int)
    requires 0 <= j < |existing|
    ensures !IsNew(existing[j], existing, kind)
  {
  }

  /** Two items that agree on the given fields have the same key. */
  lemma {:induction false} KeyOfAgrees(a: map<string, Value>, b: map<string, Value>, fields: seq<string>)
    requires forall i :: 0 <= i < |fields| ==> (fields[i] in a <==> fields[i] in b)
    requires forall i :: 0 <= i < |fields| && fields[i] in a ==> a[fields[i]] == b[fields[i]]
    ensures KeyOf(a, fields) == KeyOf(b, fields)
    decreases |fields|
  {
    if |fields| > 0 {
      KeyOfAgrees(a, b, fields[1..]);
    }
  }

  /** Marking only touches `is_new` and `badge`, never a key field, so an item
      keeps its key. */
  lemma MarkedKeepsKey(before: map<string, Value>, after: map<string, Value>, existing: seq<map<string, Value>>,
                       kind: string, branding: map<string, Value>)
    requires Marked(before, after, existing, kind, branding)
    ensures Key(after, kind) == Key(before, kind)
  {
    var fields := KeyFields(kind);
    assert forall i :: 0 <= i < |fields| ==> fields[i] != "is_new" && fields[i] != "badge";
    forall i | 0 <= i < |fields|
      ensures fields[i] in after <==> fields[i] in before
    {
      assert fields[i] in after <==> fields[i] in after.Keys - {"is_new", "badge"};
      assert fields[i] in before <==> fields[i] in before.Keys - {"is_new", "badge"};
    }
    KeyOfAgrees(after, before, fields);
  }

  /** Marking an item a second time against the same dataset changes
      nothing more. */
  lemma MarkItemIsIdempotent(item: map<string, Value>, existing: seq<map<string, Value>>,
                             kind: string, branding: map<string, Value>)
    requires ExistingKeys(existing, kind).Some?
    requires MarkItem(item, ExistingKeys(existing, kind).value, kind, branding).Some?
    ensures var keys := ExistingKeys(existing, kind).value;
            var m := MarkItem(item, keys, kind, branding).value;
            MarkItem(m, keys, kind, branding) == Some(m)
  {
    var keys := ExistingKeys(existing, kind).value;
    var m := MarkItem(item, keys, kind, branding).value;
    MarkItemSpec(item, existing, kind, branding);
    MarkedKeepsKey(item, m, existing, kind, branding);
    NotInKeysIsNew(item, existing, kind);
    MarkOneOfMarked(m, IsNew(item, existing, kind), NewBadge(branding, kind));
  }

  /** An item that already carries its marks is left as it is. */
  lemma MarkOneOfMarked(m: map<string, Value>, isNew: bool, badge: Option<Value>)
    requires "is_new" in m && m["is_new"] == Bool(isNew) && "badge" in m
    requires isNew ==> badge == Some(m["badge"])
    ensures MarkOne(m, isNew, badge) == Some(m)
  {
    assert m["is_new" := Bool(isNew)] == m;
    if isNew {
      assert m["badge" := m["badge"]] == m;
    }
  }

  /** Marking is idempotent: marking the marked items against the same
      dataset changes nothing more. */
  lemma MarkNewIsIdempotent(items: seq<map<string, Value>>, existing: seq<map<string, Value>>,
                            kind: string, branding: map<string, Value>)
    requires MarkNew(items, existing, kind, branding).Some?
    ensures var m := MarkNew(items, existing, kind, branding).value;
            MarkNew(m, existing, kind, branding) == Some(m)
  {
    var keys := ExistingKeys(existing, kind).value;
    var xs := seq(|items|, i requires 0 <= i < |items| => MarkItem(items[i], keys, kind, branding));
    var m := MarkNew(items, existing, kind, branding).value;
    assert AllSome(xs) == Some(m);
    var ys := seq(|m|, i requires 0 <= i < |m| => MarkItem(m[i], keys, kind, branding));
    forall i | 0 <= i < |m|
      ensures ys[i] == Some(m[i])
    {
      assert xs[i] == Some(m[i]);
      MarkItemIsIdempotent(items[i], existing, kind, branding);
    }
    var r := AllSome(ys);
    assert r.Some?;
    assert r.value == m;
  }

  // -------------------------------------------------- validate_against_schema

  /** The part of a JSON schema `validate_against_schema` reads: the item
      keys listed as required, and for each declared property the value of its
      `type` entry (`""` when it has none or it is not a string, since such a
      value equals neither "string" nor "boolean"). */
  datatype Schema = Schema(required: seq<string>, propertyTypes: map<string, string>)

  /** The value passes the basic type check for the declared type; only
      "string" and "boolean" are checked. */
  predicate HasDeclaredType(v: Value, declared: string) {
    && (declared == "string" ==> v.Str?)
    && (declared == "boolean" ==> v.Bool?)
  }

  predicate Conforms(schema: Schema, obj: Value) {
    && obj.Obj?
    && (forall f :: f in schema.required ==> f in obj.fields)
    && (forall k :: k in schema.propertyTypes && k in obj.fields ==>
          HasDeclaredType(obj.fields[k], schema.propertyTypes[k]))
  }

  /** `validate_against_schema`: the objects that carry every required key
      and whose declared string and boolean properties, where present, have
      that type, in their original order. */
  function ValidateAgainstSchema(items: seq<Value>, schema: Schema): (r: seq<Value>)
    ensures IsSubsequence(r, items)
    ensures forall x :: x in r ==> x.Obj? && forall f :: f in schema.required ==> f in x.fields
    ensures forall x, k :: x in r && k in schema.propertyTypes && k in x.fields ==>
              (schema.propertyTypes[k] == "string" ==> x.fields[k].Str?)
    ensures forall x, k :: x in r && k in schema.propertyTypes && k in x.fields ==>
              (schema.propertyTypes[k] == "boolean" ==> x.fields[k].Bool?)
    ensures forall x :: x in items && Conforms(schema, x) ==> x in r
    ensures forall x :: multiset(r)[x] == if Conforms(schema, x) then multiset(items)[x] else 0
  {
    var keep := x => Conforms(schema, x);
    FilterMultiplicity(items, keep);
    Filter(items, keep)
  }

  /** Validated items validate again unchanged. */
  lemma ValidateIsIdempotent(items: seq<Value>, schema: Schema)
    ensures var once := ValidateAgainstSchema(items, schema);
            ValidateAgainstSchema(once, schema) == once
  {
    var once := ValidateAgainstSchema(items, schema);
    FilterKeepsAll(once, x => Conforms(schema, x));
  }

  /** A non-object is never kept, and neither is an object missing a required
      key. */
  lemma ValidateDropsNonConforming(items: seq<Value>, schema: Schema, x: Value)
    requires !x.Obj? || exists f :: f in schema.required && f !in x.fields
    ensures x !in ValidateAgainstSchema(items, schema)
  {
  }
}

=== FILE: availability.dfy ===
/** Phase B, `apply_availability` in happenstance/pairing.py: seat times a
    booking site offers are matched against each recommendation's windows,
    graded, the closest three to the target are kept, the total is recomputed
    and the list is re-ranked. Every time is read with `ParseTimeToMinutes`;
    a time it cannot read raises in the source and is `Failure(MalformedTime)`
    here. */
module Availability {
  import opened Wrappers
  import opened Text
  import opened Seqs
  import opened StableSort
  import opened Clock
  import opened PairingTypes

  // ------------------------------------------------------------ windows

  /** A window in minutes of the day; both ends are included. */
  datatype Bounds = Bounds(lo: int, hi: int)

  /** `_time_in_window` on parsed minutes: both ends are included, and a
      window whose end reads earlier than its start (one crossing midnight)
      contains nothing. */
  function InWindow(m: int, b: Bounds): (r: bool)
    ensures b.hi < b.lo ==> !r
    ensures b.lo <= b.hi && (m == b.lo || m == b.hi) ==> r
    ensures r ==> b.lo <= m && m <= b.hi
  {
    b.lo <= m <= b.hi
  }

  /** A seat time as offered and the minute it reads as. */
  datatype Slot = Slot(text: string, minute: int)

  function Texts(slots: seq<Slot>): (r: seq<string>)
    ensures |r| == |slots|
    ensures forall i :: 0 <= i < |slots| ==> r[i] == slots[i].text
  {
    seq(|slots|, i requires 0 <= i < |slots| => slots[i].text)
  }

  /** Reads every offered time, keeping the order. */
  function ParseSlots(times: seq<string>): (r: Option<seq<Slot>>)
    ensures r.Some? <==> forall i :: 0 <= i < |times| ==> ParseTimeToMinutes(times[i]).Some?
    ensures r.Some? ==> |r.value| == |times|
    ensures r.Some? ==> forall i :: 0 <= i < |times| ==>
                          r.value[i] == Slot(times[i], ParseTimeToMinutes(times[i]).value)
    decreases |times|
  {
    if |times| == 0 then Some([])
    else
      match (ParseTimeToMinutes(times[0]), ParseSlots(times[1..]))
      case (Some(m), Some(rest)) => Some([Slot(times[0], m)] + rest)
      case (None, _) => None
      case (_, None) =>
        assert forall i :: 1 <= i < |times| ==> times[i] == times[1..][i - 1];
        None
  }

  function ParseBounds(startTime: string, endTime: string): (r: Option<Bounds>)
    ensures r.Some? <==> ParseTimeToMinutes(startTime).Some? && ParseTimeToMinutes(endTime).Some?
    ensures r.Some? ==> r.value == Bounds(ParseTimeToMinutes(startTime).value, ParseTimeToMinutes(endTime).value)
  {
    match (ParseTimeToMinutes(startTime), ParseTimeToMinutes(endTime))
    case (Some(lo), Some(hi)) => Some(Bounds(lo, hi))
    case _ => None
  }

  /** The source only looks at the first two fallbacks. */
  function Considered(fallbacks: seq<FallbackWindow>): (r: seq<FallbackWindow>)
    ensures |r| == Min(2, |fallbacks|)
    ensures r == fallbacks[..|r|]
  {
    if |fallbacks| <= 2 then fallbacks else fallbacks[..2]
  }

  /** Reads the bounds of the fallbacks the source looks at. */
  function ParseFallbacks(fallbacks: seq<FallbackWindow>): (r: Option<seq<Bounds>>)
    ensures var fs := Considered(fallbacks);
            r.Some? <==> forall i :: 0 <= i < |fs| ==> ParseBounds(fs[i].startTime, fs[i].endTime).Some?
    ensures r.Some? ==> |r.value| == |Considered(fallbacks)|
    ensures r.Some? ==> forall i :: 0 <= i < |r.value| ==>
              Some(r.value[i]) == ParseBounds(fallbacks[i].startTime, fallbacks[i].endTime)
  {
    var fs := Considered(fallbacks);
    if |fs| == 0 then Some([])
    else
      var first := ParseBounds(fs[0].startTime, fs[0].endTime);
      var second := if |fs| == 2 then ParseBounds(fs[1].startTime, fs[1].endTime) else Some(Bounds(0, 0));
      if first.None? || second.None? then None
      else if |fs| == 1 then Some([first.value])
      else Some([first.value, second.value])
  }

  // ------------------------------------------------------------- grading

  /** The offered times inside a window, in offer order. */
  function InBucket(slots: seq<Slot>, b: Bounds): (r: seq<Slot>)
    ensures IsSubsequence(r, slots)
    ensures forall s :: s in r <==> s in slots && InWindow(s.minute, b)
  {
    Filter(slots, (s: Slot) => InWindow(s.minute, b))
  }

  predicate AnyInWindow(slots: seq<Slot>, b: Bounds) {
    exists i :: 0 <= i < |slots| && InWindow(slots[i].minute, b)
  }

  /** An availability grade and the times it draws recommendations from. */
  datatype Grade = Grade(fit: real, pool: seq<Slot>)

  /** The times a grade draws from: the preferred window's at 100, the first
      fallback's at 66, the second's at 33, and every offered time otherwise. */
  function PoolFor(fit: real, slots: seq<Slot>, preferred: Bounds, fallbacks: seq<Bounds>): seq<Slot> {
    if fit == 100.0 then InBucket(slots, preferred)
    else if fit == 66.0 && |fallbacks| >= 1 then InBucket(slots, fallbacks[0])
    else if fit == 33.0 && |fallbacks| >= 2 then InBucket(slots, fallbacks[1])
    else slots
  }

  /** 100 when a time is in the preferred window, else 66 when one is in the
      first fallback, else 33 when one is in the second, else 0; the pool is
      that window's times, or all times at 0. */
  function GradeSlots(slots: seq<Slot>, preferred: Bounds, fallbacks: seq<Bounds>): (g: Grade)
    requires |fallbacks| <= 2
    ensures g.fit == 100.0 <==> AnyInWindow(slots, preferred)
    ensures g.fit == 66.0 <==>
              !AnyInWindow(slots, preferred) && |fallbacks| >= 1 && AnyInWindow(slots, fallbacks[0])
    ensures g.fit == 33.0 <==>
              && !AnyInWindow(slots, preferred)
              && (|fallbacks| >= 1 ==> !AnyInWindow(slots, fallbacks[0]))
              && |fallbacks| == 2 && AnyInWindow(slots, fallbacks[1])
    ensures g.fit in {0.0, 33.0, 66.0, 100.0}
    ensures g.fit == 0.0 ==> g.pool == slots
    ensures g.fit == 100.0 ==> forall s :: s in g.pool <==> s in slots && InWindow(s.minute, preferred)
    ensures g.fit == 66.0 ==> forall s :: s in g.pool <==> s in slots && InWindow(s.minute, fallbacks[0])
    ensures g.fit == 33.0 ==> forall s :: s in g.pool <==> s in slots && InWindow(s.minute, fallbacks[1])
    ensures g.pool == PoolFor(g.fit, slots, preferred, fallbacks)
    ensures IsSubsequence(g.pool, slots)
    ensures |slots| > 0 ==> |g.pool| > 0
  {
    var inPreferred := InBucket(slots, preferred);
    var inFirst := if |fallbacks| >= 1 then InBucket(slots, fallbacks[0]) else [];
    var inSecond := if |fallbacks| >= 2 then InBucket(slots, fallbacks[1]) else [];
    NonEmptyBuckets(slots, [preferred] + fallbacks);
    SubsequenceOfSelf(slots);
    if |inPreferred| > 0 then Grade(100.0, inPreferred)
    else if |inFirst| > 0 then Grade(66.0, inFirst)
    else if |inSecond| > 0 then Grade(33.0, inSecond)
    else Grade(0.0, slots)
  }

  lemma NonEmptyBuckets(slots: seq<Slot>, windows: seq<Bounds>)
    ensures forall i :: 0 <= i < |windows| ==> (|InBucket(slots, windows[i])| > 0 <==> AnyInWindow(slots, windows[i]))
  {
    forall i | 0 <= i < |windows|
      ensures |InBucket(slots, windows[i])| > 0 <==> AnyInWindow(slots, windows[i])
    {
      NonEmptyBucket(slots, windows[i]);
    }
  }

  lemma NonEmptyBucket(slots: seq<Slot>, b: Bounds)
    ensures |InBucket(slots, b)| > 0 <==> AnyInWindow(slots, b)
  {
    var r := InBucket(slots, b);
    if |r| > 0 {
      assert r[0] in r;
    }
    if AnyInWindow(slots, b) {
      var i :| 0 <= i < |slots| && InWindow(slots[i].minute, b);
      assert slots[i] in r;
    }
  }

  lemma {:induction false} SubsequenceOfSelf<T>(s: seq<T>)
    ensures IsSubsequence(s, s)
    decreases |s|
  {
    if |s| > 0 {
      SubsequenceOfSelf(s[1..]);
    }
  }

  /** More offered times never lower the grade. */
  lemma MoreTimesNeverLowerGrade(slots: seq<Slot>, more: seq<Slot>, preferred: Bounds, fallbacks: seq<Bounds>)
    requires |fallbacks| <= 2
    requires forall s :: s in slots ==> s in more
    ensures GradeSlots(slots, preferred, fallbacks).fit <= GradeSlots(more, preferred, fallbacks).fit
  {
    forall b | AnyInWindow(slots, b)
      ensures AnyInWindow(more, b)
    {
      var i :| 0 <= i < |slots| && InWindow(slots[i].minute, b);
      assert slots[i] in more;
    }
  }

  // ------------------------------------------------------ closest times

  function Distance(s: Slot, target: int): nat {
    if s.minute >= target then s.minute - target else target - s.minute
  }

  /** The sort key of `_closest_to_target`: distance from the target. */
  function CloserTo(target: int): (Slot, Slot) -> bool {
    (a: Slot, b: Slot) => Distance(a, target) < Distance(b, target)
  }

  lemma CloserToIsStrictWeakOrder(target: int)
    ensures StrictWeakOrder(CloserTo(target))
  {
  }

  /** `_closest_to_target`: the (at most) three slots nearest the target;
      no slot left out is nearer than a chosen one, and of equally near
      slots the earliest offered are chosen. */
  function ClosestToTarget(slots: seq<Slot>, target: int): (r: seq<Slot>)
    ensures |r| == Min(3, |slots|)
    ensures multiset(r) <= multiset(slots)
    ensures forall i, j :: 0 <= i < j < |r| ==> Distance(r[i], target) <= Distance(r[j], target)
    ensures forall x, i :: x in multiset(slots) - multiset(r) && 0 <= i < |r| ==>
              Distance(r[i], target) <= Distance(x, target)
    ensures forall k :: Class(r, k, CloserTo(target)) <= Class(slots, k, CloserTo(target))
  {
    CloserToIsStrictWeakOrder(target);
    var r := TakeSmallest(slots, 3, CloserTo(target));
    assert forall i, j :: 0 <= i < j < |r| ==> !CloserTo(target)(r[j], r[i]);
    r
  }

  // ------------------------------------------------------ one recommendation

  /** Readability of everything `apply_availability` parses for one
      recommendation with a non-empty offer: each offered time, the preferred
      bounds, the bounds of the first two fallbacks and the target. */
  predicate AllReadable(rec: PairingRecommendation, times: seq<string>) {
    && ParseSlots(times).Some?
    && ParseBounds(rec.recommendedWindows.preferred.startTime, rec.recommendedWindows.preferred.endTime).Some?
    && ParseFallbacks(rec.recommendedWindows.fallbacks).Some?
    && ParseTimeToMinutes(rec.targetTime).Some?
  }

  /** Records the grade: no longer pending, the chosen times, the new
      availability sub-score and the recomputed total. */
  function Settle(rec: PairingRecommendation, fit: real, chosen: seq<string>, cfg: PairingConfig): PairingRecommendation {
    var breakdown := rec.scoreBreakdown.(availabilityFit := fit);
    rec.(availabilityPending := false,
         recommendedAvailableTimes := Some(chosen),
         scoreBreakdown := breakdown,
         score := WeightedTotal(breakdown, cfg))
  }

  /** The loop body of `apply_availability` for a recommendation with a
      payload offering `times`. */
  function UpdateRecommendation(rec: PairingRecommendation, times: seq<string>, cfg: PairingConfig)
    : (r: Result<PairingRecommendation, PairingError>)
    ensures r.Failure? <==> |times| > 0 && !AllReadable(rec, times)
    ensures r.Success? ==>
              var u := r.value;
              && u.restaurantId == rec.restaurantId
              && u.recommendedWindows == rec.recommendedWindows
              && u.targetTime == rec.targetTime
              && u.whyMatched == rec.whyMatched
              && u.scoreBreakdown == rec.scoreBreakdown.(availabilityFit := u.scoreBreakdown.availabilityFit)
              && u.scoreBreakdown.availabilityFit in {0.0, 33.0, 66.0, 100.0}
              && u.score == WeightedTotal(u.scoreBreakdown, cfg)
              && !u.availabilityPending
              && u.recommendedAvailableTimes.Some?
              && |u.recommendedAvailableTimes.value| <= 3
              && (|u.recommendedAvailableTimes.value| == 0 <==> |times| == 0)
              && (|times| == 0 ==> u.scoreBreakdown.availabilityFit == 0.0)
              && (forall t :: t in u.recommendedAvailableTimes.value ==> t in times)
  {
    if |times| == 0 then Success(Settle(rec, 0.0, [], cfg))
    else if !AllReadable(rec, times) then Failure(MalformedTime)
    else
      var slots := ParseSlots(times).value;
      var w := rec.recommendedWindows;
      var preferred := ParseBounds(w.preferred.startTime, w.preferred.endTime).value;
      var g := GradeSlots(slots, preferred, ParseFallbacks(w.fallbacks).value);
      var chosen := ClosestToTarget(g.pool, ParseTimeToMinutes(rec.targetTime).value);
      ChosenAreOffered(times, slots, g.pool, chosen);
      Success(Settle(rec, g.fit, Texts(chosen), cfg))
  }

  /** Some offered time reads as a minute inside `b`. */
  predicate Offers(times: seq<string>, b: Bounds) {
    exists i :: 0 <= i < |times| && ParseTimeToMinutes(times[i]).Some? && InWindow(ParseTimeToMinutes(times[i]).value, b)
  }

  lemma OffersIsAnyInWindow(times: seq<string>, b: Bounds)
    requires ParseSlots(times).Some?
    ensures Offers(times, b) <==> AnyInWindow(ParseSlots(times).value, b)
  {
    var slots := ParseSlots(times).value;
    if Offers(times, b) {
      var i :| 0 <= i < |times| && ParseTimeToMinutes(times[i]).Some? && InWindow(ParseTimeToMinutes(times[i]).value, b);
      assert InWindow(slots[i].minute, b);
    }
    if AnyInWindow(slots, b) {
      var i :| 0 <= i < |slots| && InWindow(slots[i].minute, b);
      assert ParseTimeToMinutes(times[i]).Some? && InWindow(ParseTimeToMinutes(times[i]).value, b);
    }
  }

  /** A readable, non-empty offer is graded by `GradeSlots` and answered by
      `ClosestToTarget` on the grade's pool. */
  lemma UpdateGrades(rec: PairingRecommendation, times: seq<string>, cfg: PairingConfig)
    requires |times| > 0 && AllReadable(rec, times)
    ensures var w := rec.recommendedWindows;
            var g := GradeSlots(ParseSlots(times).value, ParseBounds(w.preferred.startTime, w.preferred.endTime).value,
                                ParseFallbacks(w.fallbacks).value);
            var u := UpdateRecommendation(rec, times, cfg).value;
            && u.scoreBreakdown.availabilityFit == g.fit
            && u.recommendedAvailableTimes == Some(Texts(ClosestToTarget(g.pool, ParseTimeToMinutes(rec.targetTime).value)))
  {
  }

  /** The availability sub-score of a graded offer: 100 exactly when a time
      falls in the preferred window; else 66 exactly when one falls in the
      first fallback; else 33 exactly when one falls in the second; else 0. */
  lemma GradeFollowsWindows(rec: PairingRecommendation, times: seq<string>, cfg: PairingConfig)
    requires |times| > 0 && AllReadable(rec, times)
    ensures var w := rec.recommendedWindows;
            var preferred := ParseBounds(w.preferred.startTime, w.preferred.endTime).value;
            var fbs := ParseFallbacks(w.fallbacks).value;
            var fit := UpdateRecommendation(rec, times, cfg).value.scoreBreakdown.availabilityFit;
            && (fit == 100.0 <==> Offers(times, preferred))
            && (fit == 66.0 <==> !Offers(times, preferred) && |fbs| >= 1 && Offers(times, fbs[0]))
            && (fit == 33.0 <==>
                  && !Offers(times, preferred)
                  && (|fbs| >= 1 ==> !Offers(times, fbs[0]))
                  && |fbs| == 2 && Offers(times, fbs[1]))
            && (fit == 0.0 <==>
                  && !Offers(times, preferred)
                  && forall k :: 0 <= k < |fbs| ==> !Offers(times, fbs[k]))
  {
    var w := rec.recommendedWindows;
    UpdateGrades(rec, times, cfg);
    GradeByOffers(times, ParseBounds(w.preferred.startTime, w.preferred.endTime).value, ParseFallbacks(w.fallbacks).value);
  }

  lemma GradeByOffers(times: seq<string>, preferred: Bounds, fbs: seq<Bounds>)
    requires ParseSlots(times).Some? && |fbs| <= 2
    ensures var fit := GradeSlots(ParseSlots(times).value, preferred, fbs).fit;
            && (fit == 100.0 <==> Offers(times, preferred))
            && (fit == 66.0 <==> !Offers(times, preferred) && |fbs| >= 1 && Offers(times, fbs[0]))
            && (fit == 33.0 <==>
                  && !Offers(times, preferred)
                  && (|fbs| >= 1 ==> !Offers(times, fbs[0]))
                  && |fbs| == 2 && Offers(times, fbs[1]))
            && (fit == 0.0 <==>
                  && !Offers(times, preferred)
                  && forall k :: 0 <= k < |fbs| ==> !Offers(times, fbs[k]))
  {
    var slots := ParseSlots(times).value;
    var g := GradeSlots(slots, preferred, fbs);
    OffersIsAnyInWindow(times, preferred);
    var inFirst := |fbs| >= 1 && Offers(times, fbs[0]);
    var inSecond := |fbs| == 2 && Offers(times, fbs[1]);
    if |fbs| >= 1 {
      OffersIsAnyInWindow(times, fbs[0]);
      assert inFirst == AnyInWindow(slots, fbs[0]);
    }
    if |fbs| == 2 {
      OffersIsAnyInWindow(times, fbs[1]);
      assert inSecond == AnyInWindow(slots, fbs[1]);
    }
    assert (forall k :: 0 <= k < |fbs| ==> !Offers(times, fbs[k])) <==> !inFirst && !inSecond;
  }

  /** `picked` is what `_closest_to_target` keeps of `pool`: as many as it
      can up to three, drawn from the pool, nearest first, none left out
      nearer than one kept, and of equally near times the earliest offered. */
  ghost predicate NearestThree(picked: seq<Slot>, pool: seq<Slot>, target: int) {
    && |picked| == Min(3, |pool|)
    && multiset(picked) <= multiset(pool)
    && (forall i, j :: 0 <= i < j < |picked| ==> Distance(picked[i], target) <= Distance(picked[j], target))
    && (forall x, i :: x in multiset(pool) - multiset(picked) && 0 <= i < |picked| ==>
          Distance(picked[i], target) <= Distance(x, target))
    && (forall k :: Class(picked, k, CloserTo(target)) <= Class(pool, k, CloserTo(target)))
  }

  lemma ClosestIsNearestThree(pool: seq<Slot>, target: int)
    ensures NearestThree(ClosestToTarget(pool, target), pool, target)
  {
  }

  /** The times a graded offer recommends are the nearest three to the
      target of the winning window's times (of every offered time when none
      is in a window). */
  lemma UpdateChoosesClosest(rec: PairingRecommendation, times: seq<string>, cfg: PairingConfig)
    requires |times| > 0 && AllReadable(rec, times)
    ensures var w := rec.recommendedWindows;
            var slots := ParseSlots(times).value;
            var preferred := ParseBounds(w.preferred.startTime, w.preferred.endTime).value;
            var fbs := ParseFallbacks(w.fallbacks).value;
            var u := UpdateRecommendation(rec, times, cfg).value;
            var bucket := PoolFor(u.scoreBreakdown.availabilityFit, slots, preferred, fbs);
            exists picked: seq<Slot> ::
              && Some(Texts(picked)) == u.recommendedAvailableTimes
              && NearestThree(picked, bucket, ParseTimeToMinutes(rec.targetTime).value)
  {
    var w := rec.recommendedWindows;
    var slots := ParseSlots(times).value;
    var preferred := ParseBounds(w.preferred.startTime, w.preferred.endTime).value;
    var fbs := ParseFallbacks(w.fallbacks).value;
    var target := ParseTimeToMinutes(rec.targetTime).value;
    var g := GradeSlots(slots, preferred, fbs);
    UpdateGrades(rec, times, cfg);
    var picked := ClosestToTarget(g.pool, target);
    ClosestIsNearestThree(g.pool, target);
    assert Some(Texts(picked)) == UpdateRecommendation(rec, times, cfg).value.recommendedAvailableTimes;
  }

  lemma ChosenAreOffered(times: seq<string>, slots: seq<Slot>, pool: seq<Slot>, chosen: seq<Slot>)
    requires |slots| == |times| && forall i :: 0 <= i < |times| ==> slots[i].text == times[i]
    requires IsSubsequence(pool, slots)
    requires multiset(chosen) <= multiset(pool)
    ensures forall t :: t in Texts(chosen) ==> t in times
  {
    forall t | t in Texts(chosen)
      ensures t in times
    {
      var i :| 0 <= i < |chosen| && Texts(chosen)[i] == t;
      assert chosen[i] in multiset(pool);
      SubsequenceMembers(pool, slots, chosen[i]);
      var j :| 0 <= j < |slots| && slots[j] == chosen[i];
      assert times[j] == t;
    }
  }

  lemma {:induction false} SubsequenceMembers<T>(a: seq<T>, b: seq<T>, x: T)
    requires IsSubsequence(a, b) && x in a
    ensures x in b
    decreases |b|
  {
    if |a| > 0 && |b| > 0 {
      if a[0] == b[0] && IsSubsequence(a[1..], b[1..]) {
        if x != a[0] {
          assert x in a[1..];
          SubsequenceMembers(a[1..], b[1..], x);
        }
      } else {
        SubsequenceMembers(a, b[1..], x);
      }
    }
  }

  /** Grading again with the same offer changes nothing: the update reads
      only the windows, the target and the three other sub-scores, which it
      leaves as they were. */
  lemma UpdateIsIdempotent(rec: PairingRecommendation, times: seq<string>, cfg: PairingConfig)
    requires UpdateRecommendation(rec, times, cfg).Success?
    ensures var u := UpdateRecommendation(rec, times, cfg).value;
            UpdateRecommendation(u, times, cfg) == Success(u)
  {
    var u := UpdateRecommendation(rec, times, cfg).value;
    if |times| > 0 {
      assert AllReadable(u, times);
    }
  }

  // ----------------------------------------------------------- the list

  /** `{av["restaurantId"]: av for av in payloads}[id]`: a later payload for
      the same restaurant replaces an earlier one. */
  function LookupPayload(payloads: seq<AvailabilityPayload>, id: string): (r: Option<AvailabilityPayload>)
    ensures r.None? <==> forall i :: 0 <= i < |payloads| ==> payloads[i].restaurantId != id
    ensures r.Some? ==> exists i :: 0 <= i < |payloads| && payloads[i] == r.value
                                    && forall j :: i < j < |payloads| ==> payloads[j].restaurantId != id
    ensures r.Some? ==> r.value.restaurantId == id
    decreases |payloads|
  {
    if |payloads| == 0 then None
    else
      var last := payloads[|payloads| - 1];
      if last.restaurantId == id then Some(last)
      else
        var r := LookupPayload(payloads[..|payloads| - 1], id);
        assert forall i :: 0 <= i < |payloads| - 1 ==> payloads[..|payloads| - 1][i] == payloads[i];
        r
  }

  /** One recommendation: unchanged without a payload, graded with one. */
  function UpdateOne(rec: PairingRecommendation, payloads: seq<AvailabilityPayload>, cfg: PairingConfig)
    : Result<PairingRecommendation, PairingError>
  {
    match LookupPayload(payloads, rec.restaurantId)
    case None => Success(rec)
    case Some(p) => UpdateRecommendation(rec, p.availableTimes, cfg)
  }

  /** The loop of `apply_availability`, in list order; the first failure
      ends it. */
  function UpdateAll(recs: seq<PairingRecommendation>, payloads: seq<AvailabilityPayload>, cfg: PairingConfig)
    : (r: Result<seq<PairingRecommendation>, PairingError>)
    ensures r.Success? <==> forall i :: 0 <= i < |recs| ==> UpdateOne(recs[i], payloads, cfg).Success?
    ensures r.Success? ==> |r.value| == |recs|
    ensures r.Success? ==> forall i :: 0 <= i < |recs| ==> Success(r.value[i]) == UpdateOne(recs[i], payloads, cfg)
    decreases |recs|
  {
    if |recs| == 0 then Success([])
    else
      var head := UpdateOne(recs[0], payloads, cfg);
      var tail := UpdateAll(recs[1..], payloads, cfg);
      if head.Failure? then Failure(head.error)
      else if tail.Failure? then
        assert forall i :: 1 <= i < |recs| ==> recs[i] == recs[1..][i - 1];
        Failure(tail.error)
      else
        Success([head.value] + tail.value)
  }

  // ------------------------------------------------------------ ranking

  /** The ranking key `(-score, -travelTime, restaurantId)`: a higher total
      first, then a higher travel sub-score (closer), then the smaller id. */
  predicate RankLess(a: PairingRecommendation, b: PairingRecommendation) {
    || a.score > b.score
    || (a.score == b.score && a.scoreBreakdown.travelTime > b.scoreBreakdown.travelTime)
    || (a.score == b.score && a.scoreBreakdown.travelTime == b.scoreBreakdown.travelTime
        && LexLess(a.restaurantId, b.restaurantId))
  }

  lemma RankLessIsStrictWeakOrder()
    ensures StrictWeakOrder(RankLess)
  {
    forall a, b | RankLess(a, b)
      ensures !RankLess(b, a)
    {
      LexLessAsymmetric(a.restaurantId, b.restaurantId);
    }
    forall a, b, c | !RankLess(a, b) && !RankLess(b, c)
      ensures !RankLess(a, c)
    {
      if a.score == b.score == c.score
         && a.scoreBreakdown.travelTime == b.scoreBreakdown.travelTime == c.scoreBreakdown.travelTime {
        LexLessNegativelyTransitive(a.restaurantId, b.restaurantId, c.restaurantId);
      }
    }
  }

  /** Recommendations that tie on the key are the same restaurant: the
      ranking is a total order on distinct ids. */
  lemma RankTiesShareId(a: PairingRecommendation, b: PairingRecommendation)
    requires Tied(a, b, RankLess)
    ensures a.restaurantId == b.restaurantId
  {
    if a.restaurantId != b.restaurantId {
      LexLessTotal(a.restaurantId, b.restaurantId);
    }
  }

  function Ids(recs: seq<PairingRecommendation>): (r: seq<string>)
    ensures |r| == |recs|
    ensures forall i :: 0 <= i < |recs| ==> r[i] == recs[i].restaurantId
  {
    seq(|recs|, i requires 0 <= i < |recs| => recs[i].restaurantId)
  }

  /** `apply_availability`: update every recommendation, then re-rank. */
  function ApplyAvailability(recs: seq<PairingRecommendation>, payloads: seq<AvailabilityPayload>, cfg: PairingConfig)
    : (r: Result<seq<PairingRecommendation>, PairingError>)
    ensures r.Success? <==> UpdateAll(recs, payloads, cfg).Success?
    ensures r.Success? ==> SortedBy(r.value, RankLess)
    ensures r.Success? ==> multiset(r.value) == multiset(UpdateAll(recs, payloads, cfg).value)
    ensures r.Success? ==> multiset(Ids(r.value)) == multiset(Ids(recs))
  {
    match UpdateAll(recs, payloads, cfg)
    case Failure(e) => Failure(e)
    case Success(updated) =>
      RankLessIsStrictWeakOrder();
      var sorted := SortBy(updated, RankLess);
      IdsOfPermutation(sorted, updated);
      assert Ids(updated) == Ids(recs);
      Success(sorted)
  }

  lemma IdsOfPermutation(a: seq<PairingRecommendation>, b: seq<PairingRecommendation>)
    requires multiset(a) == multiset(b)
    ensures multiset(Ids(a)) == multiset(Ids(b))
  {
    var id := (r: PairingRecommendation) => r.restaurantId;
    MapPermutation(a, b, id);
    assert Ids(a) == Map(a, id);
    assert Ids(b) == Map(b, id);
  }

  /** A recommendation as `apply_availability` leaves it: updated when the
      update succeeds, which it does for every one once `UpdateAll` has. */
  function UpdatedOrSelf(rec: PairingRecommendation, payloads: seq<AvailabilityPayload>, cfg: PairingConfig): PairingRecommendation {
    match UpdateOne(rec, payloads, cfg)
    case Success(u) => u
    case Failure(_) => rec
  }

  /** Updating does not depend on the order of the list: two orderings of the
      same recommendations both succeed or both fail, and give the same
      updated records. */
  lemma UpdateAllPermutation(a: seq<PairingRecommendation>, b: seq<PairingRecommendation>,
                             payloads: seq<AvailabilityPayload>, cfg: PairingConfig)
    requires multiset(a) == multiset(b)
    ensures UpdateAll(a, payloads, cfg).Success? <==> UpdateAll(b, payloads, cfg).Success?
    ensures UpdateAll(a, payloads, cfg).Success? ==>
              multiset(UpdateAll(a, payloads, cfg).value) == multiset(UpdateAll(b, payloads, cfg).value)
  {
    UpdateAllSucceedsAlike(a, b, payloads, cfg);
    UpdateAllSucceedsAlike(b, a, payloads, cfg);
    var f := (rec: PairingRecommendation) => UpdatedOrSelf(rec, payloads, cfg);
    if UpdateAll(a, payloads, cfg).Success? {
      MapPermutation(a, b, f);
      UpdateAllIsMap(a, payloads, cfg, f);
      UpdateAllIsMap(b, payloads, cfg, f);
    }
  }

  lemma UpdateAllSucceedsAlike(a: seq<PairingRecommendation>, b: seq<PairingRecommendation>,
                               payloads: seq<AvailabilityPayload>, cfg: PairingConfig)
    requires multiset(a) == multiset(b)
    ensures UpdateAll(a, payloads, cfg).Success? ==> UpdateAll(b, payloads, cfg).Success?
  {
    if UpdateAll(a, payloads, cfg).Success? {
      forall i | 0 <= i < |b|
        ensures UpdateOne(b[i], payloads, cfg).Success?
      {
        assert b[i] in multiset(a);
        var j :| 0 <= j < |a| && a[j] == b[i];
      }
    }
  }

  lemma UpdateAllIsMap(a: seq<PairingRecommendation>, payloads: seq<AvailabilityPayload>, cfg: PairingConfig,
                       f: PairingRecommendation -> PairingRecommendation)
    requires UpdateAll(a, payloads, cfg).Success?
    requires forall rec :: f(rec) == UpdatedOrSelf(rec, payloads, cfg)
    ensures UpdateAll(a, payloads, cfg).value == Map(a, f)
  {
  }

  /** A recommendation without a payload keeps every field; it only moves. */
  lemma UnmatchedUnchanged(recs: seq<PairingRecommendation>, payloads: seq<AvailabilityPayload>, cfg: PairingConfig, i: int)
    requires ApplyAvailability(recs, payloads, cfg).Success?
    requires 0 <= i < |recs| && forall j :: 0 <= j < |payloads| ==> payloads[j].restaurantId != recs[i].restaurantId
    ensures recs[i] in ApplyAvailability(recs, payloads, cfg).value
  {
    var updated := UpdateAll(recs, payloads, cfg).value;
    assert updated[i] == recs[i];
    assert recs[i] in multiset(updated);
    assert recs[i] in multiset(ApplyAvailability(recs, payloads, cfg).value);
  }

  /** A recommendation is settled when updating it changes nothing. */
  predicate Settled(rec: PairingRecommendation, payloads: seq<AvailabilityPayload>, cfg: PairingConfig) {
    UpdateOne(rec, payloads, cfg) == Success(rec)
  }

  lemma {:induction false} UpdateAllSettled(recs: seq<PairingRecommendation>, payloads: seq<AvailabilityPayload>, cfg: PairingConfig)
    requires forall i :: 0 <= i < |recs| ==> Settled(recs[i], payloads, cfg)
    ensures UpdateAll(recs, payloads, cfg) == Success(recs)
    decreases |recs|
  {
    if |recs| > 0 {
      UpdateAllSettled(recs[1..], payloads, cfg);
      assert recs == [recs[0]] + recs[1..];
    }
  }

  /** Applying the same payloads twice gives the same list as applying them
      once: the grades are already recorded and the order already ranked. */
  lemma {:induction false} ApplyAvailabilityIsIdempotent(recs: seq<PairingRecommendation>, payloads: seq<AvailabilityPayload>, cfg: PairingConfig)
    requires ApplyAvailability(recs, payloads, cfg).Success?
    ensures var once := ApplyAvailability(recs, payloads, cfg).value;
            ApplyAvailability(once, payloads, cfg) == Success(once)
  {
    var updated := UpdateAll(recs, payloads, cfg).value;
    var once := ApplyAvailability(recs, payloads, cfg).value;
    forall i | 0 <= i < |updated|
      ensures Settled(updated[i], payloads, cfg)
    {
      var p := LookupPayload(payloads, recs[i].restaurantId);
      if p.Some? {
        UpdateIsIdempotent(recs[i], p.value.availableTimes, cfg);
      }
    }
    forall i | 0 <= i < |once|
      ensures Settled(once[i], payloads, cfg)
    {
      assert once[i] in multiset(updated);
      var j :| 0 <= j < |updated| && updated[j] == once[i];
    }
    UpdateAllSettled(once, payloads, cfg);
    RankLessIsStrictWeakOrder();
    SortBySortedIsIdentity(once, RankLess);
  }
}

=== FILE: clock.dfy ===
/** Clock helpers of the pairing engine (happenstance/pairing.py): rounding a
    time up to a 5-minute mark and converting between minutes and `HH:MM`.

    A timestamp is modelled as a whole number of minutes counted from a local
    midnight in the timestamp's own UTC offset, so `t % 60` is the minute field
    a Python `datetime` shows and `t % 1440` the minute of its day. Seconds
    are dropped: the source adds only whole minutes, rounds by the minute
    field alone and formats without seconds, so they never show. */
module Clock {
  import opened Wrappers
  import opened Text

  const MinutesPerDay: int := 1440

  /** `_ceil_to_5_minutes`: the least multiple of 5 at or after `m`. The source
      reads `dt.minute % 5`; since 60 is a multiple of 5 this equals `m % 5`. */
  function Ceil5(m: int): (r: int)
    ensures r % 5 == 0
    ensures m <= r < m + 5
  {
    if m % 5 == 0 then m else m + (5 - m % 5)
  }

  /** No multiple of 5 at or after `m` comes before `Ceil5(m)`. */
  lemma Ceil5IsLeast(m: int, k: int)
    requires k % 5 == 0 && m <= k
    ensures Ceil5(m) <= k
  {
  }

  lemma Ceil5Monotone(a: int, b: int)
    requires a <= b
    ensures Ceil5(a) <= Ceil5(b)
  {
    Ceil5IsLeast(a, Ceil5(b));
  }

  /** Shifting by a multiple of 5 commutes with rounding. */
  lemma Ceil5Shift(m: int, k: int)
    requires k % 5 == 0
    ensures Ceil5(m + k) == Ceil5(m) + k
  {
    Ceil5IsLeast(m + k, Ceil5(m) + k);
    Ceil5IsLeast(m, Ceil5(m + k) - k);
  }

  /** `f"{n:02d}"`: zero-padded to two characters; a negative number keeps
      its sign and is already two characters wide. */
  function Pad2(n: int): string {
    if 0 <= n < 10 then "0" + [DigitChar(n)] else IntToDecimal(n)
  }

  /** `_minutes_to_time_str`: floor division and Python's non-negative
      remainder (Dafny's `/` and `%` agree with Python's for the divisor 60).
      The text parses back to the same minutes, for every integer (negative
      hours are written with their sign); from 0 up to 99:59 it is five
      characters with the colon in the middle. */
  function MinutesToTimeStr(minutes: int): (r: string)
    ensures ParseTimeToMinutes(r) == Some(minutes)
    ensures 0 <= minutes < 6000 ==>
              IsClockText(r) && ClockHours(r) == minutes / 60 && ClockMinutes(r) == minutes % 60
  {
    Pad2RoundTrip(minutes / 60);
    Pad2RoundTrip(minutes % 60);
    SplitTwoParts(Pad2(minutes / 60), ':', Pad2(minutes % 60));
    PaddedFields(minutes);
    Pad2(minutes / 60) + [':'] + Pad2(minutes % 60)
  }

  lemma PaddedFields(minutes: int)
    ensures 0 <= minutes < 6000 ==>
              var r := Pad2(minutes / 60) + [':'] + Pad2(minutes % 60);
              IsClockText(r) && ClockHours(r) == minutes / 60 && ClockMinutes(r) == minutes % 60
  {
    if 0 <= minutes < 6000 {
      Pad2Digits(minutes / 60);
      Pad2Digits(minutes % 60);
    }
  }

  /** Two ASCII digits read as a number from 0 to 99. */
  function TwoDigits(hi: char, lo: char): int
    requires IsDigit(hi) && IsDigit(lo)
  {
    (hi as int - '0' as int) * 10 + (lo as int - '0' as int)
  }

  /** A zero-padded `HH:MM`-shaped text: two digits, a colon, two digits. */
  predicate IsClockText(s: string) {
    |s| == 5 && s[2] == ':' && IsDigit(s[0]) && IsDigit(s[1]) && IsDigit(s[3]) && IsDigit(s[4])
  }

  /** The hour field of a clock text. */
  function ClockHours(s: string): int
    requires IsClockText(s)
  {
    TwoDigits(s[0], s[1])
  }

  /** The minute field of a clock text. */
  function ClockMinutes(s: string): int
    requires IsClockText(s)
  {
    TwoDigits(s[3], s[4])
  }

  /** The minutes a clock text stands for: hours times 60 plus minutes. */
  function ClockTextMinutes(s: string): int
    requires IsClockText(s)
  {
    ClockHours(s) * 60 + ClockMinutes(s)
  }

  /** `s` is the zero-padded 24-hour `HH:MM` of the minute of the day of `t`:
      the hour field is from 00 to 23 and the minute field from 00 to 59. */
  predicate ShowsMinuteOfDay(s: string, t: int) {
    && IsClockText(s)
    && ClockHours(s) == (t % MinutesPerDay) / 60
    && ClockMinutes(s) == (t % MinutesPerDay) % 60
  }

  /** Only one text shows a given minute of the day, so the written form of
      a time is fixed: 307 minutes can only be "05:07". */
  lemma ShowsMinuteOfDayUnique(a: string, b: string, t: int)
    requires ShowsMinuteOfDay(a, t) && ShowsMinuteOfDay(b, t)
    ensures a == b
  {
    TwoDigitsInjective(a[0], a[1], b[0], b[1]);
    TwoDigitsInjective(a[3], a[4], b[3], b[4]);
  }

  lemma TwoDigitsInjective(a: char, b: char, c: char, d: char)
    requires IsDigit(a) && IsDigit(b) && IsDigit(c) && IsDigit(d)
    requires TwoDigits(a, b) == TwoDigits(c, d)
    ensures a == c && b == d
  {
  }

  /** A clock text parses to the minutes its fields say. */
  lemma ClockTextValue(s: string)
    requires IsClockText(s)
    ensures ParseTimeToMinutes(s) == Some(ClockTextMinutes(s))
  {
    var h := s[..2];
    var m := s[3..];
    assert s == h + [':'] + m;
    ParseTimeOfParts(h, m);
    assert IsDigits(h) && IsDigits(m);
    assert ParseInt(h) == Some(DigitsValue(h)) && ParseInt(m) == Some(DigitsValue(m));
    assert h[..1] == [s[0]] && m[..1] == [s[3]];
    assert DigitsValue(h) == DigitsValue([s[0]]) * 10 + (s[1] as int - '0' as int);
    assert DigitsValue(m) == DigitsValue([s[3]]) * 10 + (s[4] as int - '0' as int);
  }

  /** `_parse_time_to_minutes`: `int(parts[0]) * 60 + int(parts[1])` over
      `s.split(":")`; a missing second part (`IndexError`) or a part `int`
      rejects (`ValueError`) gives `None`. Parts after the second are ignored,
      and the parts are not range-checked, as in the source. A text without a
      colon is rejected. */
  function ParseTimeToMinutes(s: string): (r: Option<int>)
    ensures ':' !in s ==> r.None?
  {
    NoSeparatorOnePart(s, ':');
    var parts := Split(s, ':');
    if |parts| < 2 then None
    else
      match (ParseInt(parts[0]), ParseInt(parts[1]))
      case (Some(h), Some(m)) => Some(h * 60 + m)
      case _ => None
  }

  /** `_format_time`: `strftime("%H:%M")`, the minute of the day written as
      `MinutesToTimeStr` writes it. */
  function FormatClock(t: int): (r: string)
    ensures ShowsMinuteOfDay(r, t)
    ensures ParseTimeToMinutes(r) == Some(t % MinutesPerDay)
  {
    MinutesToTimeStr(t % MinutesPerDay)
  }

  lemma FormatClockExample()
    ensures FormatClock(307) == "05:07"
  {
    var r := FormatClock(307);
    assert ShowsMinuteOfDay("05:07", 307);
    ShowsMinuteOfDayUnique(r, "05:07", 307);
  }

  /** `f"{n:02d}"` of 0..99 is two digits that read back as `n`. */
  lemma Pad2Digits(n: int)
    requires 0 <= n < 100
    ensures |Pad2(n)| == 2 && IsDigit(Pad2(n)[0]) && IsDigit(Pad2(n)[1])
    ensures TwoDigits(Pad2(n)[0], Pad2(n)[1]) == n
  {
    if n >= 10 {
      assert NatToDecimal(n / 10) == [DigitChar(n / 10)];
      assert NatToDecimal(n) == NatToDecimal(n / 10) + [DigitChar(n % 10)];
    }
  }

  lemma Pad2RoundTrip(n: int)
    ensures ':' !in Pad2(n)
    ensures ParseInt(Pad2(n)) == Some(n)
  {
    if 0 <= n < 10 {
      var s := Pad2(n);
      assert s == ['0', DigitChar(n)] && s[..1] == "0";
      assert IsDigits(s) && s[0] != '-' && s[0] != '+';
      assert DigitsValue(s[..1]) == 0;
      assert DigitsValue(s) == DigitsValue(s[..1]) * 10 + n;
    } else {
      ParseIntRoundTrip(n);
      var s := IntToDecimal(n);
      if n < 0 {
        assert s == "-" + NatToDecimal(-n);
        assert forall i :: 1 <= i < |s| ==> s[i] == NatToDecimal(-n)[i - 1];
      }
      assert forall i :: 0 <= i < |s| ==> s[i] == '-' || IsDigit(s[i]);
    }
  }

  lemma NoSeparatorOnePart(s: string, sep: char)
    ensures sep !in s ==> |Split(s, sep)| == 1
  {
    if sep !in s {
      SplitWithoutSeparator(s, sep);
    }
  }

  /** A text `h:m` reads as `h * 60 + m` when both halves are integers, and
      is rejected otherwise. */
  lemma ParseTimeOfParts(h: string, m: string)
    requires ':' !in h && ':' !in m
    ensures ParseTimeToMinutes(h + [':'] + m)
            == if ParseInt(h).Some? && ParseInt(m).Some? then Some(ParseInt(h).value * 60 + ParseInt(m).value) else None
  {
    SplitTwoParts(h, ':', m);
  }

  /** Whatever follows a second colon is ignored. */
  lemma ParseTimeIgnoresExtraParts(h: string, m: string, rest: string)
    requires ':' !in h && ':' !in m
    ensures ParseTimeToMinutes(h + [':'] + m + [':'] + rest) == ParseTimeToMinutes(h + [':'] + m)
  {
    SplitTwoParts(h, ':', m);
    assert h + [':'] + m + [':'] + rest == h + [':'] + (m + [':'] + rest);
    SplitAtFirstSeparator(h, ':', m + [':'] + rest);
    SplitAtFirstSeparator(m, ':', rest);
  }
}

=== FILE: dining.dfy ===
/** The dining-window calculator, `compute_dining_windows` in
    happenstance/pairing.py. For a meal before or after the event the windows
    are computed on timestamps (module Clock: whole minutes in the event's own
    offset) and then written as `HH:MM`; when the meal is the event they are
    fixed dinner windows. */
module Dining {
  import opened Wrappers
  import opened Text
  import opened Clock
  import opened PairingTypes

  datatype MealIntent = BeforeEvent | AfterEvent | MealIsEvent

  /** `event.get("mealIntent", "BEFORE_EVENT")`, then the `if/elif/else`: any
      value other than the two timed intents takes the fixed windows. */
  function IntentOf(e: Event): (i: MealIntent)
    ensures e.mealIntent.None? ==> i == BeforeEvent
    ensures i == AfterEvent <==> e.mealIntent == Some("AFTER_EVENT")
    ensures i == MealIsEvent <==> e.mealIntent.Some? && e.mealIntent.value !in {"BEFORE_EVENT", "AFTER_EVENT"}
  {
    var raw := e.mealIntent.GetOr("BEFORE_EVENT");
    if raw == "BEFORE_EVENT" then BeforeEvent
    else if raw == "AFTER_EVENT" then AfterEvent
    else MealIsEvent
  }

  /** The buffer before sitting down: longer with children. */
  function PreBuffer(e: Event, cfg: PairingConfig): int {
    if e.Kids() then cfg.preBufferWithKids else cfg.preBufferMinutes
  }

  /** A window between two timestamps, both ends included. */
  datatype Span = Span(start: int, end: int)

  datatype LabelledSpan = LabelledSpan(name: string, span: Span)

  /** The windows of a timed meal, on timestamps. */
  datatype Plan = Plan(target: int, preferred: Span, fallbacks: seq<LabelledSpan>)

  const EarlierSeating: string := "Earlier seating"
  const LaterSeating: string := "Later seating"

  /** When the meal must be over to reach the event in time. */
  function LatestFinish(start: int, travel: int, preBuffer: int): int {
    start - (travel + preBuffer)
  }

  /** The before-event branch. The target is the latest finish minus the meal,
      rounded up, so a guest seated at the target finishes up to 4 minutes
      after the latest finish. The "Later seating" fallback is always clamped:
      it ends `meal + 15` minutes before the latest finish and lasts an hour. */
  function BeforeEventPlan(start: int, travel: int, preBuffer: int, meal: int): (p: Plan)
    ensures p.target % 5 == 0
    ensures 0 <= p.target + meal - LatestFinish(start, travel, preBuffer) <= 4
    ensures p.preferred == Span(p.target - 30, p.target + 30)
    ensures |p.fallbacks| == 2
    ensures p.fallbacks[0] == LabelledSpan(EarlierSeating, Span(p.preferred.start - 60, p.preferred.end - 60))
    ensures p.fallbacks[1].name == LaterSeating
    ensures p.fallbacks[1].span.end == LatestFinish(start, travel, preBuffer) - (meal + 15)
    ensures p.fallbacks[1].span.start == p.fallbacks[1].span.end - 60
  {
    var latest := LatestFinish(start, travel, preBuffer);
    var target := Ceil5(latest - meal);
    var preferred := Span(target - 30, target + 30);
    var earlier := Span(preferred.start - 60, preferred.end - 60);
    var shifted := Span(preferred.start + 45, preferred.end + 45);
    var later :=
      if shifted.end + meal > latest then
        var end := latest - (meal + 15);
        Span(end - 60, end)
      else shifted;
    Plan(target, preferred, [LabelledSpan(EarlierSeating, earlier), LabelledSpan(LaterSeating, later)])
  }

  /** The clamp condition of the "Later seating" fallback holds for every
      input: the target already leaves no room for a later start. */
  lemma LaterClampAlwaysApplies(start: int, travel: int, preBuffer: int, meal: int)
    ensures var p := BeforeEventPlan(start, travel, preBuffer, meal);
            (p.preferred.end + 45) + meal > LatestFinish(start, travel, preBuffer)
  {
  }

  /** So the window labelled "Later seating" lies before the target: it ends
      at least 15 minutes before it and starts before the preferred window. */
  lemma LaterSeatingPrecedesTarget(start: int, travel: int, preBuffer: int, meal: int)
    ensures var p := BeforeEventPlan(start, travel, preBuffer, meal);
            && p.fallbacks[1].span.end <= p.target - 15
            && p.fallbacks[1].span.start < p.preferred.start
  {
  }

  /** A concrete event where seating at the target makes the meal end 4
      minutes after the latest finish: a 19:00 start, 14 minutes of travel, the
      10-minute buffer and a 90-minute meal give a latest finish of 18:36 and
      a latest seat of 17:06, rounded up to a 17:10 target; a meal seated then
      is over at 18:40. */
  lemma BeforeEventTargetCanOverrun()
    ensures var p := BeforeEventPlan(1140, 14, 10, 90);
            p.target == 1030 && p.target + 90 == LatestFinish(1140, 14, 10) + 4
  {
  }

  /** A longer pre-buffer never moves the before-event target later, and a
      pre-buffer longer by a multiple of 5 moves it earlier by exactly that. */
  lemma {:induction false} LongerBufferSeatsEarlier(start: int, travel: int, meal: int, short: int, long: int)
    requires short <= long
    ensures BeforeEventPlan(start, travel, long, meal).target <= BeforeEventPlan(start, travel, short, meal).target
    ensures (long - short) % 5 == 0 ==>
              BeforeEventPlan(start, travel, long, meal).target
              == BeforeEventPlan(start, travel, short, meal).target - (long - short)
  {
    var m := LatestFinish(start, travel, long) - meal;
    Ceil5Monotone(m, LatestFinish(start, travel, short) - meal);
    if (long - short) % 5 == 0 {
      Ceil5Shift(m, long - short);
    }
  }

  /** With children the before-event target is never later; with the
      default configuration it is exactly 5 minutes earlier. */
  lemma KidsSeatEarlierBeforeEvent(e: Event, travel: int, cfg: PairingConfig)
    requires IntentOf(e) == BeforeEvent && cfg.preBufferMinutes <= cfg.preBufferWithKids
    ensures var withKids := e.(hasKids := Some(true));
            var without := e.(hasKids := Some(false));
            TimedPlan(withKids, travel, cfg).value.target <= TimedPlan(without, travel, cfg).value.target
    ensures var withKids := e.(hasKids := Some(true));
            var without := e.(hasKids := Some(false));
            TimedPlan(withKids, travel, DefaultConfig.(mealDurationCasual := cfg.mealDurationCasual)).value.target
            == TimedPlan(without, travel, DefaultConfig.(mealDurationCasual := cfg.mealDurationCasual)).value.target - 5
  {
    LongerBufferSeatsEarlier(e.startAt, travel, cfg.mealDurationCasual, cfg.preBufferMinutes, cfg.preBufferWithKids);
    LongerBufferSeatsEarlier(e.startAt, travel, cfg.mealDurationCasual, 10, 15);
  }

  /** The end of the event: `endAt`, else the start plus a non-zero duration
      (0 is falsy in the source's test), else two hours after the start. */
  function EventEnd(e: Event): int {
    if e.endAt.Some? then e.endAt.value
    else if e.durationMinutes.Some? && e.durationMinutes.value != 0 then e.startAt + e.durationMinutes.value
    else e.startAt + 120
  }

  /** The after-event branch: the earliest seat is the first 5-minute mark after
      the end, exit buffer, travel and pre-buffer; the "Earlier seating"
      fallback never starts before the end plus the pre-buffer. */
  function AfterEventPlan(end: int, travel: int, preBuffer: int, exitBuffer: int): (p: Plan)
    ensures p.target % 5 == 0
    ensures end + exitBuffer + travel + preBuffer <= p.target < end + exitBuffer + travel + preBuffer + 5
    ensures p.preferred == Span(p.target, p.target + 60)
    ensures |p.fallbacks| == 2
    ensures p.fallbacks[0] == LabelledSpan(LaterSeating, Span(p.target + 60, p.target + 120))
    ensures p.fallbacks[1].name == EarlierSeating
    ensures p.fallbacks[1].span.start >= end + preBuffer
    ensures p.fallbacks[1].span.start >= p.target - 30
    ensures p.fallbacks[1].span.start in {end + preBuffer, p.target - 30}
    ensures p.fallbacks[1].span.end == p.fallbacks[1].span.start + 60
  {
    var earliest := Ceil5(end + (exitBuffer + travel + preBuffer));
    var earlierStart := if earliest - 30 >= end + preBuffer then earliest - 30 else end + preBuffer;
    Plan(earliest, Span(earliest, earliest + 60),
         [LabelledSpan(LaterSeating, Span(earliest + 60, earliest + 120)),
          LabelledSpan(EarlierSeating, Span(earlierStart, earlierStart + 60))])
  }

  /** After the event a longer pre-buffer never moves the target earlier. */
  lemma KidsSeatLaterAfterEvent(end: int, travel: int, exitBuffer: int, short: int, long: int)
    requires short <= long
    ensures AfterEventPlan(end, travel, short, exitBuffer).target <= AfterEventPlan(end, travel, long, exitBuffer).target
  {
    Ceil5Monotone(end + (exitBuffer + travel + short), end + (exitBuffer + travel + long));
  }

  /** The timed plan for an event, or `None` when the meal is the event. */
  function TimedPlan(e: Event, travel: int, cfg: PairingConfig): Option<Plan> {
    match IntentOf(e)
    case BeforeEvent => Some(BeforeEventPlan(e.startAt, travel, PreBuffer(e, cfg), cfg.mealDurationCasual))
    case AfterEvent => Some(AfterEventPlan(EventEnd(e), travel, PreBuffer(e, cfg), cfg.exitBufferMinutes))
    case MealIsEvent => None
  }

  function FormatSpan(s: Span): TimeWindow {
    TimeWindow(FormatClock(s.start), FormatClock(s.end))
  }

  /** `w` writes the plan `p`: the same fallbacks under the same names, and
      every time the zero-padded 24-hour `HH:MM` of its timestamp's minute of
      the day, which parses back to that minute. */
  ghost predicate WritesPlan(w: DiningWindows, p: Plan) {
    && |w.fallbacks| == |p.fallbacks|
    && ShowsMinuteOfDay(w.targetTime, p.target)
    && ShowsMinuteOfDay(w.preferred.startTime, p.preferred.start)
    && ShowsMinuteOfDay(w.preferred.endTime, p.preferred.end)
    && ParseTimeToMinutes(w.targetTime) == Some(p.target % MinutesPerDay)
    && ParseTimeToMinutes(w.preferred.startTime) == Some(p.preferred.start % MinutesPerDay)
    && ParseTimeToMinutes(w.preferred.endTime) == Some(p.preferred.end % MinutesPerDay)
    && forall i :: 0 <= i < |p.fallbacks| ==>
         && w.fallbacks[i].name == p.fallbacks[i].name
         && ShowsMinuteOfDay(w.fallbacks[i].startTime, p.fallbacks[i].span.start)
         && ShowsMinuteOfDay(w.fallbacks[i].endTime, p.fallbacks[i].span.end)
         && ParseTimeToMinutes(w.fallbacks[i].startTime) == Some(p.fallbacks[i].span.start % MinutesPerDay)
         && ParseTimeToMinutes(w.fallbacks[i].endTime) == Some(p.fallbacks[i].span.end % MinutesPerDay)
  }

  /** Writes a plan, every time as `HH:MM`. */
  function FormatPlan(p: Plan): (w: DiningWindows)
    ensures Readable(w)
    ensures ClockTexts(w)
    ensures WritesPlan(w, p)
  {
    DiningWindows(
      FormatClock(p.target),
      FormatSpan(p.preferred),
      seq(|p.fallbacks|, i requires 0 <= i < |p.fallbacks| =>
        var w := FormatSpan(p.fallbacks[i].span);
        FallbackWindow(p.fallbacks[i].name, w.startTime, w.endTime)))
  }

  /** The fixed dinner windows when the meal is the event: "Later seating"
      then "Earlier seating". */
  function MealIsEventWindows(kids: bool): (w: DiningWindows)
    ensures |w.fallbacks| == 2
    ensures w.fallbacks[0].name == LaterSeating && w.fallbacks[1].name == EarlierSeating
  {
    if kids then
      DiningWindows("17:30", TimeWindow("17:00", "18:30"),
        [FallbackWindow(LaterSeating, "18:30", "20:00"), FallbackWindow(EarlierSeating, "16:00", "17:00")])
    else
      DiningWindows("18:30", TimeWindow("18:00", "19:30"),
        [FallbackWindow(LaterSeating, "19:30", "20:30"), FallbackWindow(EarlierSeating, "17:00", "18:00")])
  }

  /** The fixed windows in minutes of the day (`ClockTextMinutes`, which is
      what the times parse to): a 17:30 target within 17:00-18:30 with
      children, 18:30 within 18:00-19:30 without; "Later seating" begins where
      the preferred window ends and lasts until 20:00 (20:30 without
      children); "Earlier seating" starts at 16:00 (17:00) and ends where the
      preferred window begins. */
  ghost predicate FixedMinutes(w: DiningWindows, kids: bool)
    requires |w.fallbacks| == 2 && ClockTexts(w)
  {
    && ClockTextMinutes(w.targetTime) == (if kids then 1050 else 1110)
    && ClockTextMinutes(w.preferred.startTime) == (if kids then 1020 else 1080)
    && ClockTextMinutes(w.preferred.endTime) == (if kids then 1110 else 1170)
    && ClockTextMinutes(w.fallbacks[0].startTime) == ClockTextMinutes(w.preferred.endTime)
    && ClockTextMinutes(w.fallbacks[0].endTime) == (if kids then 1200 else 1230)
    && ClockTextMinutes(w.fallbacks[1].startTime) == (if kids then 960 else 1020)
    && ClockTextMinutes(w.fallbacks[1].endTime) == ClockTextMinutes(w.preferred.startTime)
  }

  /** Every fixed time is a `DD:DD` text, at the minutes `FixedMinutes`
      lists. */
  lemma FixedWindowsMinutes(kids: bool)
    ensures ClockTexts(MealIsEventWindows(kids))
    ensures FixedMinutes(MealIsEventWindows(kids), kids)
  {
  }

  /** With children the fixed windows start an hour earlier: the target and
      the start of every window move back 60 minutes. */
  lemma KidsDineAnHourEarlier()
    ensures var k := MealIsEventWindows(true);
            var a := MealIsEventWindows(false);
            && ClockTextMinutes(k.targetTime) == ClockTextMinutes(a.targetTime) - 60
            && ClockTextMinutes(k.preferred.startTime) == ClockTextMinutes(a.preferred.startTime) - 60
            && forall i :: 0 <= i < 2 ==>
                 ClockTextMinutes(k.fallbacks[i].startTime) == ClockTextMinutes(a.fallbacks[i].startTime) - 60
  {
    FixedWindowsMinutes(true);
    FixedWindowsMinutes(false);
    var k := MealIsEventWindows(true);
    var a := MealIsEventWindows(false);
    assert ClockTextMinutes(k.fallbacks[0].startTime) == ClockTextMinutes(a.fallbacks[0].startTime) - 60;
  }

  /** Every time of the windows is a `DD:DD` text. */
  ghost predicate ClockTexts(w: DiningWindows) {
    && IsClockText(w.targetTime)
    && IsClockText(w.preferred.startTime)
    && IsClockText(w.preferred.endTime)
    && forall i :: 0 <= i < |w.fallbacks| ==> IsClockText(w.fallbacks[i].startTime) && IsClockText(w.fallbacks[i].endTime)
  }

  lemma FixedWindowsReadable(kids: bool)
    ensures Readable(MealIsEventWindows(kids))
  {
    FixedWindowsMinutes(kids);
    WindowMinutes(MealIsEventWindows(kids));
  }

  /** Windows written as `DD:DD` texts parse to the minutes the digits say. */
  lemma WindowMinutes(w: DiningWindows)
    requires ClockTexts(w)
    ensures ParseTimeToMinutes(w.targetTime) == Some(ClockTextMinutes(w.targetTime))
    ensures ParseTimeToMinutes(w.preferred.startTime) == Some(ClockTextMinutes(w.preferred.startTime))
    ensures ParseTimeToMinutes(w.preferred.endTime) == Some(ClockTextMinutes(w.preferred.endTime))
    ensures forall i :: 0 <= i < |w.fallbacks| ==>
              && ParseTimeToMinutes(w.fallbacks[i].startTime) == Some(ClockTextMinutes(w.fallbacks[i].startTime))
              && ParseTimeToMinutes(w.fallbacks[i].endTime) == Some(ClockTextMinutes(w.fallbacks[i].endTime))
  {
    ClockTextValue(w.targetTime);
    ClockTextValue(w.preferred.startTime);
    ClockTextValue(w.preferred.endTime);
    forall i | 0 <= i < |w.fallbacks|
      ensures ParseTimeToMinutes(w.fallbacks[i].startTime) == Some(ClockTextMinutes(w.fallbacks[i].startTime))
      ensures ParseTimeToMinutes(w.fallbacks[i].endTime) == Some(ClockTextMinutes(w.fallbacks[i].endTime))
    {
      ClockTextValue(w.fallbacks[i].startTime);
      ClockTextValue(w.fallbacks[i].endTime);
    }
  }

  /** Every time `compute_dining_windows` writes is one Phase B can parse. */
  ghost predicate Readable(w: DiningWindows) {
    && ParseTimeToMinutes(w.targetTime).Some?
    && ParseTimeToMinutes(w.preferred.startTime).Some?
    && ParseTimeToMinutes(w.preferred.endTime).Some?
    && forall i :: 0 <= i < |w.fallbacks| ==>
         ParseTimeToMinutes(w.fallbacks[i].startTime).Some? && ParseTimeToMinutes(w.fallbacks[i].endTime).Some?
  }

  /** `compute_dining_windows`. Every time is written as `HH:MM`; timed
      intents write the plan's timestamps as their minute of the day; the fallbacks come in the order "Earlier",
      "Later" before the event and "Later", "Earlier" otherwise. */
  function ComputeDiningWindows(e: Event, travel: int, cfg: PairingConfig): (w: DiningWindows)
    ensures |w.fallbacks| == 2
    ensures Readable(w)
    ensures ClockTexts(w)
    ensures TimedPlan(e, travel, cfg).Some? ==> WritesPlan(w, TimedPlan(e, travel, cfg).value)
    ensures IntentOf(e) == MealIsEvent ==> w == MealIsEventWindows(e.Kids())
    ensures w.fallbacks[0].name == (if IntentOf(e) == BeforeEvent then EarlierSeating else LaterSeating)
    ensures w.fallbacks[1].name == (if IntentOf(e) == BeforeEvent then LaterSeating else EarlierSeating)
  {
    match TimedPlan(e, travel, cfg)
    case Some(p) => FormatPlan(p)
    case None =>
      FixedWindowsMinutes(e.Kids());
      FixedWindowsReadable(e.Kids());
      MealIsEventWindows(e.Kids())
  }

  /** An event starting on a 5-minute mark, 15 minutes away, default
      configuration, no children: seat 115 minutes before the start (25
      minutes of travel and buffer, a 90-minute meal), preferred window from
      30 minutes before to 30 minutes after; for a 19:00 start that is 17:05
      within 16:35 to 17:35. */
  lemma BeforeEventExample(e: Event)
    requires e.startAt % 5 == 0 && e.mealIntent == Some("BEFORE_EVENT") && !e.Kids()
    ensures var w := ComputeDiningWindows(e, 15, DefaultConfig);
            && ParseTimeToMinutes(w.targetTime) == Some((e.startAt - 115) % MinutesPerDay)
            && ParseTimeToMinutes(w.preferred.startTime) == Some((e.startAt - 145) % MinutesPerDay)
            && ParseTimeToMinutes(w.preferred.endTime) == Some((e.startAt - 85) % MinutesPerDay)
  {
    Ceil5Shift(e.startAt, -115);
    var p := BeforeEventPlan(e.startAt, 15, 10, 90);
    assert p.target == e.startAt - 115;
    assert IntentOf(e) == BeforeEvent && PreBuffer(e, DefaultConfig) == 10;
    assert TimedPlan(e, 15, DefaultConfig) == Some(p);
    var w := ComputeDiningWindows(e, 15, DefaultConfig);
    assert ParseTimeToMinutes(w.targetTime) == Some(p.target % MinutesPerDay);
    assert ParseTimeToMinutes(w.preferred.startTime) == Some(p.preferred.start % MinutesPerDay);
    assert ParseTimeToMinutes(w.preferred.endTime) == Some(p.preferred.end % MinutesPerDay);
  }

  /** An event whose end falls on a 5-minute mark, 15 minutes away, default
      configuration, no children: the earliest seat is 40 minutes after the end
      (15-minute exit, 15 minutes of travel, 10-minute buffer); for an event
      ending at 21:00 that is 21:40. */
  lemma AfterEventExample(e: Event)
    requires e.endAt.Some? && e.endAt.value % 5 == 0 && e.mealIntent == Some("AFTER_EVENT") && !e.Kids()
    ensures ParseTimeToMinutes(ComputeDiningWindows(e, 15, DefaultConfig).targetTime)
         == Some((e.endAt.value + 40) % MinutesPerDay)
  {
    assert IntentOf(e) == AfterEvent && PreBuffer(e, DefaultConfig) == 10;
    assert TimedPlan(e, 15, DefaultConfig).value.target == e.endAt.value + 40;
  }
}

=== FILE: fit.dfy ===
/** The Phase A fit scorer, `score_restaurant_fit` in happenstance/pairing.py:
    a service-style, a travel-time and a cuisine sub-score, each out of 100,
    weighted into a total; availability scores 0 until Phase B. */
module Fit {
  import opened Text
  import opened PairingTypes

  /** A sub-score and the UI reasons it contributes, in order. */
  datatype Scored = Scored(score: real, reasons: seq<string>)

  /** What `score_restaurant_fit` returns. */
  datatype FitResult = FitResult(totalScore: real, breakdown: ScoreBreakdown, reasons: seq<string>, excluded: bool)

  const ZeroBreakdown: ScoreBreakdown := ScoreBreakdown(0.0, 0.0, 0.0, 0.0)

  // ------------------------------------------------------- service style

  /** `_is_family_style_event`: the upper-cased type mentions FAMILY, or a
      party of at least 4 with children, or any party of at least 6. */
  function IsFamilyStyleEvent(e: Event): (b: bool)
    ensures Contains(Upper(e.TypeText()), "FAMILY") ==> b
    ensures e.Party() >= 6 ==> b
    ensures e.Kids() && e.Party() >= 4 ==> b
    ensures !Contains(Upper(e.TypeText()), "FAMILY") && e.Party() < 4 ==> !b
    ensures !Contains(Upper(e.TypeText()), "FAMILY") && !e.Kids() && e.Party() < 6 ==> !b
  {
    || Contains(Upper(e.TypeText()), "FAMILY")
    || (e.Kids() && e.Party() >= 4)
    || e.Party() >= 6
  }

  /** The restaurant lists `family_style` or `share_plates` among its service
      style tags (exact tag match). */
  predicate HasFamilyStyle(r: Restaurant) {
    "family_style" in r.serviceStyleTags || "share_plates" in r.serviceStyleTags
  }

  /** The hard filter: a family-style event, a restaurant without family-style
      service, and a configuration that requires it. */
  predicate HardFiltered(e: Event, r: Restaurant, cfg: PairingConfig) {
    IsFamilyStyleEvent(e) && !HasFamilyStyle(r) && cfg.requireFamilyStyleForFamilyEvents
  }

  /** Points added for group-friendly signals; the reasons name the ones
      that show (a noise-tolerant restaurant earns points but no reason). */
  function GroupBonus(signals: seq<string>, e: Event): (b: Scored)
    ensures 0.0 <= b.score <= 20.0
    ensures b.score == 0.0 <==> b.reasons == [] && "noise_tolerant" !in signals
    ensures |b.reasons| <= 3
  {
    var large := if "large_tables" in signals then Scored(5.0, ["Large tables available"]) else Scored(0.0, []);
    var kids := if "kids_menu" in signals && e.Kids() then Scored(5.0, ["Kids menu available"]) else Scored(0.0, []);
    var quiet := if "noise_tolerant" in signals then 3.0 else 0.0;
    var room :=
      if "private_room" in signals && e.Party() >= 8 then Scored(7.0, ["Private room available"]) else Scored(0.0, []);
    Scored(large.score + kids.score + quiet + room.score, large.reasons + kids.reasons + room.reasons)
  }

  /** The service-style base before bonuses. */
  function ServiceBase(needsFamilyStyle: bool, hasFamilyStyle: bool): Scored {
    if hasFamilyStyle && needsFamilyStyle then Scored(90.0, ["Family-style dining"])
    else if hasFamilyStyle then Scored(70.0, ["Share plates available"])
    else Scored(50.0, [])
  }

  /** The service-style sub-score when the hard filter does not apply: 10
      when family style is needed and missing (the soft penalty, no bonuses);
      otherwise the base plus the group bonus, capped at 100. */
  function ServiceStyleScore(e: Event, r: Restaurant): (s: Scored)
    ensures 10.0 <= s.score <= 100.0
    ensures IsFamilyStyleEvent(e) && !HasFamilyStyle(r) ==> s == Scored(10.0, ["Not family-style dining"])
    ensures !(IsFamilyStyleEvent(e) && !HasFamilyStyle(r)) ==>
              && ServiceBase(IsFamilyStyleEvent(e), HasFamilyStyle(r)).score <= s.score
              && s.score <= ServiceBase(IsFamilyStyleEvent(e), HasFamilyStyle(r)).score + 20.0
              && (HasFamilyStyle(r) && IsFamilyStyleEvent(e) <==> s.score >= 90.0)
  {
    var needs := IsFamilyStyleEvent(e);
    var has := HasFamilyStyle(r);
    if needs && !has then Scored(10.0, ["Not family-style dining"])
    else
      var base := ServiceBase(needs, has);
      var bonus := GroupBonus(r.groupSignals, e);
      var total := base.score + bonus.score;
      Scored(if total < 100.0 then total else 100.0, base.reasons + bonus.reasons)
  }

  /** More group signals never lower the service-style sub-score. */
  lemma MoreSignalsNeverLowerService(e: Event, r: Restaurant, more: seq<string>)
    requires forall x :: x in r.groupSignals ==> x in more
    ensures ServiceStyleScore(e, r).score <= ServiceStyleScore(e, r.(groupSignals := more)).score
  {
    assert GroupBonus(r.groupSignals, e).score <= GroupBonus(more, e).score;
  }

  // ---------------------------------------------------------- travel time

  /** The travel-time sub-score: steps of 100, 85, 70 and 50 up to 25
      minutes, then `max(0, 100 - 3 * (minutes - 25))`. */
  function TravelTimeScore(minutes: int): (s: Scored)
    ensures InPercentRange(s.score)
    ensures s.score == 100.0 <==> minutes <= 10
    ensures s.score == 0.0 <==> minutes >= 59
    ensures |s.reasons| == (if s.score > 0.0 then 1 else 0)
  {
    var text := IntToDecimal(minutes);
    if minutes <= 10 then Scored(100.0, [text + " min away - very close"])
    else if minutes <= 15 then Scored(85.0, [text + " min away"])
    else if minutes <= 20 then Scored(70.0, [text + " min drive"])
    else if minutes <= 25 then Scored(50.0, [text + " min away"])
    else
      var raw := 100.0 - ((minutes - 25) * 3) as real;
      var score := if raw > 0.0 then raw else 0.0;
      Scored(score, if score > 0.0 then [text + " min drive - far"] else [])
  }

  /** Up to 25 minutes, a shorter trip never scores lower. */
  lemma TravelScoreMonotoneNear(a: int, b: int)
    requires a <= b <= 25
    ensures TravelTimeScore(a).score >= TravelTimeScore(b).score
  {
  }

  /** From 26 minutes on, a shorter trip never scores lower. */
  lemma TravelScoreMonotoneFar(a: int, b: int)
    requires 26 <= a <= b
    ensures TravelTimeScore(a).score >= TravelTimeScore(b).score
  {
  }

  /** But across 25 minutes the score jumps back up: 25 minutes scores 50
      while 26 minutes scores 97, so the sub-score is not monotone overall. */
  lemma TravelScoreNotMonotone()
    ensures TravelTimeScore(25).score == 50.0
    ensures TravelTimeScore(26).score == 97.0
  {
  }

  // -------------------------------------------------------------- cuisine

  /** Some candidate is one of the (lower-cased) cuisine tags; exact
      membership, not a substring test. */
  predicate AnyCuisine(candidates: seq<string>, cuisines: seq<string>) {
    exists i :: 0 <= i < |candidates| && candidates[i] in cuisines
  }

  const ShowCuisines: seq<string> := ["italian", "mediterranean", "american", "sushi"]
  const FamilyCuisines: seq<string> := ["italian", "american", "mexican", "pizza"]
  const SportsCuisines: seq<string> := ["american", "bbq", "pizza", "mexican"]

  predicate IsShow(eventType: string) {
    Contains(eventType, "music") || Contains(eventType, "show")
  }

  /** The cuisine sub-score: 50 unless the lower-cased event type names a
      kind (music or show, else family, else sports — only the first kind
      that matches is tried) and a cuisine of that kind's list is tagged. */
  function CuisineScore(eventType: string, cuisineTags: seq<string>): (s: Scored)
    ensures s.score in {50.0, 80.0, 85.0}
    ensures |s.reasons| == (if s.score == 50.0 then 0 else 1)
    ensures var t := Lower(eventType);
            var cs := seq(|cuisineTags|, i requires 0 <= i < |cuisineTags| => Lower(cuisineTags[i]));
            && (s.score == 85.0 <==> !IsShow(t) && Contains(t, "family") && AnyCuisine(FamilyCuisines, cs))
            && (s.score == 80.0 <==>
                  (IsShow(t) && AnyCuisine(ShowCuisines, cs))
                  || (!IsShow(t) && !Contains(t, "family") && Contains(t, "sports") && AnyCuisine(SportsCuisines, cs)))
  {
    var t := Lower(eventType);
    var cs := seq(|cuisineTags|, i requires 0 <= i < |cuisineTags| => Lower(cuisineTags[i]));
    if IsShow(t) then
      if AnyCuisine(ShowCuisines, cs) then Scored(80.0, ["Great for pre-show dining"]) else Scored(50.0, [])
    else if Contains(t, "family") then
      if AnyCuisine(FamilyCuisines, cs) then Scored(85.0, ["Family-friendly cuisine"]) else Scored(50.0, [])
    else if Contains(t, "sports") then
      if AnyCuisine(SportsCuisines, cs) then Scored(80.0, ["Perfect sports dining"]) else Scored(50.0, [])
    else Scored(50.0, [])
  }

  /** Tags are compared after lower-casing, so their case never matters. */
  lemma CuisineIgnoresTagCase(eventType: string, cuisineTags: seq<string>)
    ensures CuisineScore(eventType, cuisineTags)
         == CuisineScore(eventType, seq(|cuisineTags|, i requires 0 <= i < |cuisineTags| => Lower(cuisineTags[i])))
  {
    var lowered := seq(|cuisineTags|, i requires 0 <= i < |cuisineTags| => Lower(cuisineTags[i]));
    var cs := seq(|cuisineTags|, i requires 0 <= i < |cuisineTags| => Lower(cuisineTags[i]));
    var cs2 := seq(|lowered|, i requires 0 <= i < |lowered| => Lower(lowered[i]));
    forall i | 0 <= i < |cuisineTags|
      ensures cs2[i] == cs[i]
    {
      LowerIdempotent(cuisineTags[i]);
    }
    assert cs2 == cs;
  }

  /** A tag matches only when it equals a listed cuisine, not when it
      contains one: a single tag longer than every listed cuisine (such as
      "Italian Bistro") keeps the baseline 50 for any event type. */
  lemma CuisineIsExactMembership(eventType: string, tag: string)
    requires |tag| > 13
    ensures CuisineScore(eventType, [tag]).score == 50.0
  {
    var cs := seq(1, i requires 0 <= i < 1 => Lower([tag][i]));
    assert |cs[0]| > 13;
    assert !AnyCuisine(ShowCuisines, cs) && !AnyCuisine(FamilyCuisines, cs) && !AnyCuisine(SportsCuisines, cs);
  }

  // ---------------------------------------------------------------- total

  /** `score_restaurant_fit`. A hard-filtered restaurant is excluded with a
      zero score; otherwise the total is the weighted sum of the sub-scores
      with availability at 0, and the reasons are the service, travel and
      cuisine reasons in that order. */
  function ScoreRestaurantFit(e: Event, r: Restaurant, travel: int, cfg: PairingConfig): (f: FitResult)
    ensures f.excluded <==> HardFiltered(e, r, cfg)
    ensures f.excluded ==> f == FitResult(0.0, ZeroBreakdown, ["Not family-style or share-plates"], true)
    ensures !f.excluded ==>
              && f.breakdown.availabilityFit == 0.0
              && f.breakdown.serviceStyle == ServiceStyleScore(e, r).score
              && f.breakdown.travelTime == TravelTimeScore(travel).score
              && f.breakdown.cuisineDiet == CuisineScore(e.TypeText(), r.cuisineTags).score
              && f.totalScore == WeightedTotal(f.breakdown, cfg)
              && f.reasons == ServiceStyleScore(e, r).reasons + TravelTimeScore(travel).reasons
                              + CuisineScore(e.TypeText(), r.cuisineTags).reasons
    ensures NormalizedWeights(cfg) ==> InPercentRange(f.totalScore)
  {
    if HardFiltered(e, r, cfg) then
      FitResult(0.0, ZeroBreakdown, ["Not family-style or share-plates"], true)
    else
      var service := ServiceStyleScore(e, r);
      var near := TravelTimeScore(travel);
      var cuisine := CuisineScore(e.TypeText(), r.cuisineTags);
      var breakdown := ScoreBreakdown(service.score, near.score, cuisine.score, 0.0);
      var total := WeightedTotal(breakdown, cfg);
      TotalInRangeWhenNormalized(breakdown, cfg);
      FitResult(total, breakdown, service.reasons + near.reasons + cuisine.reasons, false)
  }

  lemma TotalInRangeWhenNormalized(b: ScoreBreakdown, cfg: PairingConfig)
    requires InPercentRange(b.serviceStyle) && InPercentRange(b.travelTime)
    requires InPercentRange(b.cuisineDiet) && InPercentRange(b.availabilityFit)
    ensures NormalizedWeights(cfg) ==> InPercentRange(WeightedTotal(b, cfg))
  {
    if NormalizedWeights(cfg) {
      WeightedTotalInRange(b, cfg);
    }
  }

  /** Only the travel sub-score depends on the trip, so a trip of at most 10
      minutes never totals less than a longer one, and strictly more than
      any trip scoring under 100 when travel carries weight. */
  lemma {:induction false} VeryCloseScoresHighest(e: Event, r: Restaurant, near: int, far: int, cfg: PairingConfig)
    requires !HardFiltered(e, r, cfg)
    requires near <= 10 && cfg.weightTravelTime >= 0.0
    ensures ScoreRestaurantFit(e, r, near, cfg).totalScore >= ScoreRestaurantFit(e, r, far, cfg).totalScore
    ensures far > 10 && cfg.weightTravelTime > 0.0 ==>
              ScoreRestaurantFit(e, r, near, cfg).totalScore > ScoreRestaurantFit(e, r, far, cfg).totalScore
  {
    var f1 := ScoreRestaurantFit(e, r, near, cfg);
    var b := ScoreRestaurantFit(e, r, far, cfg).breakdown;
    assert f1.breakdown == b.(travelTime := 100.0);
    assert far > 10 ==> b.travelTime < 100.0;
    PerfectTravelRaisesTotal(b, cfg);
  }

  /** Raising the travel sub-score to 100 never lowers the total, and raises
      it when travel carries weight and the sub-score was below 100. */
  lemma PerfectTravelRaisesTotal(b: ScoreBreakdown, cfg: PairingConfig)
    requires b.travelTime <= 100.0 && cfg.weightTravelTime >= 0.0
    ensures WeightedTotal(b.(travelTime := 100.0), cfg) >= WeightedTotal(b, cfg)
    ensures b.travelTime < 100.0 && cfg.weightTravelTime > 0.0 ==>
              WeightedTotal(b.(travelTime := 100.0), cfg) > WeightedTotal(b, cfg)
  {
    TravelOnlyDelta(b, 100.0, cfg);
    MulMonotone(b.travelTime, 100.0, cfg.weightTravelTime);
  }

  /** Changing only the travel sub-score changes the total by its weighted
      difference. */
  lemma TravelOnlyDelta(b: ScoreBreakdown, x: real, cfg: PairingConfig)
    ensures WeightedTotal(b.(travelTime := x), cfg) - WeightedTotal(b, cfg)
         == x * cfg.weightTravelTime - b.travelTime * cfg.weightTravelTime
  {
  }

  lemma MulMonotone(x: real, y: real, w: real)
    requires x <= y && w >= 0.0
    ensures x * w <= y * w
    ensures x < y && w > 0.0 ==> x * w < y * w
  {
    MulNonNegative(y - x, w);
    assert y * w - x * w == (y - x) * w;
    if x < y && w > 0.0 {
      assert (y - x) * w > 0.0;
    }
  }

  /** A restaurant offering family-style service is never hard-filtered. */
  lemma FamilyStyleNeverFiltered(e: Event, r: Restaurant, travel: int, cfg: PairingConfig)
    requires HasFamilyStyle(r)
    ensures !ScoreRestaurantFit(e, r, travel, cfg).excluded
  {
  }

  /** With the family-style requirement on, a party of six or more is
      excluded from every restaurant without family-style service: zero total
      and the one exclusion reason. */
  lemma LargePartyExcludesOtherService(e: Event, r: Restaurant, travel: int, cfg: PairingConfig)
    requires e.Party() >= 6 && !HasFamilyStyle(r) && cfg.requireFamilyStyleForFamilyEvents
    ensures var f := ScoreRestaurantFit(e, r, travel, cfg);
            && f.excluded
            && f.totalScore == 0.0
            && f.reasons == ["Not family-style or share-plates"]
  {
  }

  /** With the family-style requirement on, an event whose type mentions
      FAMILY in any case is excluded from every restaurant without
      family-style service, whatever the party. */
  lemma FamilyTypeExcludesOtherService(e: Event, r: Restaurant, travel: int, cfg: PairingConfig)
    requires Contains(Upper(e.TypeText()), "FAMILY") && !HasFamilyStyle(r) && cfg.requireFamilyStyleForFamilyEvents
    ensures var f := ScoreRestaurantFit(e, r, travel, cfg);
            && f.excluded
            && f.totalScore == 0.0
            && f.reasons == ["Not family-style or share-plates"]
  {
  }
}

=== FILE: json.dfy ===
/** JSON values as the repository's helpers receive them from `json.load`:
    objects are string-keyed maps (key order is not modelled) and numbers are
    exact reals. */
module Json {

  datatype Value =
    | Null
    | Bool(b: bool)
    | Num(n: real)
    | Str(s: string)
    | Arr(elems: seq<Value>)
    | Obj(fields: map<string, Value>)

  /** Python truthiness of a decoded JSON value: `None`, `False`, zero, and
      empty strings, lists and dicts are false. */
  predicate Truthy(v: Value) {
    match v
    case Null => false
    case Bool(b) => b
    case Num(n) => n != 0.0
    case Str(s) => |s| > 0
    case Arr(xs) => |xs| > 0
    case Obj(m) => |m| > 0
  }

  /** `d.get(key)` on an object: `Null` stands for Python's `None` default. */
  function Get(d: map<string, Value>, key: string): Value {
    if key in d then d[key] else Null
  }
}

=== FILE: json_io.dfy ===
/** The meta sentinel of the published JSON datasets (happenstance/io.py):
    a dataset is a list of items followed by one `{"_meta": ...}` object, and
    the loader in scripts/aggregate.py strips that sentinel again. File access
    is not modelled: the loader receives the decoded document, or `None` when
    the file is missing or does not decode. */
module JsonIo {
  import opened Wrappers
  import opened Json

  const MetaKey := "_meta"

  /** The sentinel object appended after the items. */
  function MetaEntry(meta: Value): Value {
    Obj(map[MetaKey := meta])
  }

  predicate IsMetaEntry(v: Value) {
    v.Obj? && MetaKey in v.fields
  }

  /** `append_meta`: a copy of `items` with the sentinel appended; `items`
      itself is an immutable value and so is left as it was. */
  function AppendMeta(items: seq<Value>, meta: Value): (r: seq<Value>)
    ensures |r| == |items| + 1
    ensures r[..|items|] == items
    ensures r[|items|].Obj? && r[|items|].fields.Keys == {MetaKey}
    ensures r[|items|].fields[MetaKey] == meta
  {
    items + [MetaEntry(meta)]
  }

  /** `load_existing` after decoding: a list loses a trailing sentinel, any
      other document reads as no items. */
  function LoadExisting(data: Option<Value>): (r: seq<Value>)
    ensures !(data.Some? && data.value.Arr?) ==> r == []
    ensures data.Some? && data.value.Arr? ==>
              var xs := data.value.elems;
              && |xs| - 1 <= |r| <= |xs|
              && r == xs[..|r|]
              && (|r| < |xs| <==> |xs| > 0 && IsMetaEntry(xs[|xs| - 1]))
  {
    match data
    case None => []
    case Some(Arr(xs)) => if |xs| > 0 && IsMetaEntry(xs[|xs| - 1]) then xs[..|xs| - 1] else xs
    case Some(_) => []
  }

  /** Writing a dataset with its sentinel and loading it back gives exactly the
      items, whatever they are (even when the last item itself carries a
      `_meta` key). */
  lemma LoadAfterAppend(items: seq<Value>, meta: Value)
    ensures LoadExisting(Some(Arr(AppendMeta(items, meta)))) == items
  {
    var r := AppendMeta(items, meta);
    assert IsMetaEntry(r[|r| - 1]);
    assert r[..|r| - 1] == items;
  }
}

=== FILE: pairing_types.dfy ===
/** Records of the pairing engine (happenstance/pairing.py). The source keeps
    them as loosely typed dictionaries; here each is an immutable value.
    Keys the source reads with `.get(key, default)` are `Option`s, read through
    the accessor that supplies the same default. */
module PairingTypes {
  import opened Wrappers

  datatype Location = Location(lat: real, lng: real)

  /** An event. `startAt` and `endAt` are already-parsed timestamps in whole
      minutes in their own UTC offset (see module Clock); `endAt` is `None`
      when the key is missing, null or empty. */
  datatype Event = Event(
    id: string,
    eventType: Option<string>,
    location: Option<Location>,
    startAt: int,
    endAt: Option<int>,
    durationMinutes: Option<int>,
    mealIntent: Option<string>,
    partySize: Option<int>,
    hasKids: Option<bool>)
  {
    /** `event.get("type", "")` */
    function TypeText(): string {
      eventType.GetOr("")
    }

    /** `event.get("partySize", 1)` */
    function Party(): int {
      partySize.GetOr(1)
    }

    /** `event.get("hasKids", False)` */
    predicate Kids() {
      hasKids.GetOr(false)
    }
  }

  /** A restaurant; missing tag lists are empty, as `.get(key, [])` reads them. */
  datatype Restaurant = Restaurant(
    id: string,
    location: Option<Location>,
    cuisineTags: seq<string>,
    serviceStyleTags: seq<string>,
    groupSignals: seq<string>)

  /** `PairingConfig`, without the three fields no formula reads. Weights and
      the travel speed are Python floats, modelled as exact reals. */
  datatype PairingConfig = PairingConfig(
    preBufferMinutes: int,
    preBufferWithKids: int,
    exitBufferMinutes: int,
    mealDurationCasual: int,
    weightServiceStyle: real,
    weightTravelTime: real,
    weightCuisineDiet: real,
    weightAvailability: real,
    requireFamilyStyleForFamilyEvents: bool,
    defaultTravelSpeedMph: real)

  const DefaultConfig: PairingConfig :=
    PairingConfig(10, 15, 15, 90, 0.35, 0.25, 0.20, 0.20, true, 25.0)

  datatype ScoreBreakdown = ScoreBreakdown(
    serviceStyle: real,
    travelTime: real,
    cuisineDiet: real,
    availabilityFit: real)

  /** The total score: each sub-score times its configured weight. */
  function WeightedTotal(b: ScoreBreakdown, cfg: PairingConfig): real {
    b.serviceStyle * cfg.weightServiceStyle
    + b.travelTime * cfg.weightTravelTime
    + b.cuisineDiet * cfg.weightCuisineDiet
    + b.availabilityFit * cfg.weightAvailability
  }

  predicate InPercentRange(x: real) {
    0.0 <= x <= 100.0
  }

  predicate NormalizedWeights(cfg: PairingConfig) {
    && cfg.weightServiceStyle >= 0.0
    && cfg.weightTravelTime >= 0.0
    && cfg.weightCuisineDiet >= 0.0
    && cfg.weightAvailability >= 0.0
    && cfg.weightServiceStyle + cfg.weightTravelTime + cfg.weightCuisineDiet + cfg.weightAvailability == 1.0
  }

  /** With non-negative weights summing to 1 and every sub-score in [0, 100],
      the total is in [0, 100]. */
  lemma WeightedTotalInRange(b: ScoreBreakdown, cfg: PairingConfig)
    requires NormalizedWeights(cfg)
    requires InPercentRange(b.serviceStyle) && InPercentRange(b.travelTime)
    requires InPercentRange(b.cuisineDiet) && InPercentRange(b.availabilityFit)
    ensures InPercentRange(WeightedTotal(b, cfg))
  {
    var s := WeightedTermInRange(b.serviceStyle, cfg.weightServiceStyle);
    var t := WeightedTermInRange(b.travelTime, cfg.weightTravelTime);
    var c := WeightedTermInRange(b.cuisineDiet, cfg.weightCuisineDiet);
    var a := WeightedTermInRange(b.availabilityFit, cfg.weightAvailability);
    assert WeightedTotal(b, cfg) == s + t + c + a;
  }

  lemma WeightedTermInRange(x: real, w: real) returns (p: real)
    requires InPercentRange(x) && w >= 0.0
    ensures p == x * w
    ensures 0.0 <= p <= 100.0 * w
  {
    p := x * w;
    MulNonNegative(x, w);
    MulNonNegative(100.0 - x, w);
    assert 100.0 * w - p == (100.0 - x) * w;
  }

  lemma MulNonNegative(a: real, b: real)
    requires a >= 0.0 && b >= 0.0
    ensures a * b >= 0.0
  {
    if a > 0.0 && b > 0.0 {
      assert a * b > 0.0;
    }
  }

  datatype TimeWindow = TimeWindow(startTime: string, endTime: string)

  /** A fallback window; `name` holds the source's `label` key (a Dafny keyword). */
  datatype FallbackWindow = FallbackWindow(name: string, startTime: string, endTime: string)

  datatype RecommendedWindows = RecommendedWindows(preferred: TimeWindow, fallbacks: seq<FallbackWindow>)

  /** What `compute_dining_windows` returns; all times are `HH:MM`. */
  datatype DiningWindows = DiningWindows(
    targetTime: string,
    preferred: TimeWindow,
    fallbacks: seq<FallbackWindow>)

  /** Phase B input: seat times a booking site offers, `HH:MM` without offset. */
  datatype AvailabilityPayload = AvailabilityPayload(
    restaurantId: string,
    date: string,
    partySize: int,
    availableTimes: seq<string>)

  datatype PairingRecommendation = PairingRecommendation(
    restaurantId: string,
    score: real,
    scoreBreakdown: ScoreBreakdown,
    recommendedWindows: RecommendedWindows,
    targetTime: string,
    availabilityPending: bool,
    recommendedAvailableTimes: Option<seq<string>>,
    whyMatched: seq<string>)

  /** Exceptions the engine can raise on its inputs: a time string
      `_parse_time_to_minutes` cannot read, and a zero travel speed dividing a
      distance. */
  datatype PairingError = MalformedTime | ZeroTravelSpeed
}

=== FILE: prompting.dfy ===
/** Prompt fragments (happenstance/prompting.py): bullets asking for more
    options in under-covered categories, and the month-spread sentence. */
module Prompting {
  import opened Wrappers
  import opened Text

  const BulletPrefix := "Add more options for "
  const BulletSuffix := "."

  /** `f"Add more options for {item}."` */
  function Bullet(item: string): string {
    BulletPrefix + item + BulletSuffix
  }

  /** The category a bullet asks about, or `None` for text that is not a
      bullet. */
  function BulletItem(b: string): Option<string> {
    if |b| >= |BulletPrefix| + |BulletSuffix|
       && b[..|BulletPrefix|] == BulletPrefix
       && b[|b| - |BulletSuffix|..] == BulletSuffix
    then Some(b[|BulletPrefix|..|b| - |BulletSuffix|])
    else None
  }

  /** Every bullet names its category recoverably. */
  lemma BulletItemRoundTrip(item: string)
    ensures BulletItem(Bullet(item)) == Some(item)
  {
    var b := Bullet(item);
    assert b[..|BulletPrefix|] == BulletPrefix;
    assert b[|b| - |BulletSuffix|..] == BulletSuffix;
    assert b[|BulletPrefix|..|b| - |BulletSuffix|] == item;
  }

  /** Different categories give different bullets. */
  lemma BulletInjective(a: string, b: string)
    requires Bullet(a) == Bullet(b)
    ensures a == b
  {
    BulletItemRoundTrip(a);
    BulletItemRoundTrip(b);
  }

  /** `build_gap_bullets`: one bullet for each of the first `limit`
      categories, in their order; none when `limit` is not positive. */
  method BuildGapBullets(missing: seq<string>, limit: int) returns (bullets: seq<string>)
    ensures |bullets| == if limit <= 0 then 0 else if limit < |missing| then limit else |missing|
    ensures forall i :: 0 <= i < |bullets| ==> bullets[i] == Bullet(missing[i])
  {
    bullets := [];
    var i := 0;
    while i < |missing|
      invariant 0 <= i <= |missing|
      invariant i == 0 || i <= limit
      invariant |bullets| == i
      invariant forall k :: 0 <= k < i ==> bullets[k] == Bullet(missing[k])
    {
      if |bullets| >= limit {
        break;
      }
      bullets := bullets + [Bullet(missing[i])];
      i := i + 1;
    }
  }

  /** The default `limit` of `build_gap_bullets`. */
  const DefaultBulletLimit := 3

  /** `build_gap_bullets(missing)` with the default limit: bullets for the
      first three categories, or for all of them when there are fewer. */
  method BuildGapBulletsByDefault(missing: seq<string>) returns (bullets: seq<string>)
    ensures |bullets| == if |missing| < DefaultBulletLimit then |missing| else DefaultBulletLimit
    ensures forall i :: 0 <= i < |bullets| ==> bullets[i] == Bullet(missing[i])
  {
    bullets := BuildGapBullets(missing, DefaultBulletLimit);
  }

  const GuidancePrefix := "Spread recommendations across the next "
  const GuidanceSuffix := " months when available."

  /** `month_spread_guidance`: the fixed sentence with the month count written
      in decimal between its two halves, so that it reads back as `months`. */
  function MonthSpreadGuidance(months: int): (r: string)
    ensures |r| > |GuidancePrefix| + |GuidanceSuffix|
    ensures r[..|GuidancePrefix|] == GuidancePrefix
    ensures r[|r| - |GuidanceSuffix|..] == GuidanceSuffix
    ensures ParseInt(r[|GuidancePrefix|..|r| - |GuidanceSuffix|]) == Some(months)
  {
    var n := IntToDecimal(months);
    var r := GuidancePrefix + n + GuidanceSuffix;
    assert r[|GuidancePrefix|..|r| - |GuidanceSuffix|] == n;
    ParseIntRoundTrip(months);
    r
  }

  /** The default `months` of `month_spread_guidance`. */
  const DefaultMonths := 2

  /** `month_spread_guidance()`: the sentence asks for a two-month spread. */
  function MonthSpreadGuidanceByDefault(): (r: string)
    ensures |r| > |GuidancePrefix| + |GuidanceSuffix|
    ensures r[..|GuidancePrefix|] == GuidancePrefix
    ensures r[|r| - |GuidanceSuffix|..] == GuidanceSuffix
    ensures ParseInt(r[|GuidancePrefix|..|r| - |GuidanceSuffix|]) == Some(2)
  {
    MonthSpreadGuidance(DefaultMonths)
  }
}

=== FILE: ranking.dfy ===
/** The orchestrator, `rank_restaurants_for_event` in happenstance/pairing.py:
    Phase A scores every restaurant that passes the hard filter and ranks
    them; Phase B, when availability payloads are given, grades and re-ranks. */
module Ranking {
  import opened Wrappers
  import opened StableSort
  import opened Clock
  import opened PairingTypes
  import opened Dining
  import opened Fit
  import opened Availability

  /** Python's `int(x)` on a float: truncation toward zero. */
  function TruncToInt(x: real): (n: int)
    ensures x >= 0.0 ==> n >= 0 && n as real <= x < n as real + 1.0
    ensures x < 0.0 ==> n <= 0 && n as real - 1.0 < x <= n as real
  {
    if x >= 0.0 then x.Floor else -((-x).Floor)
  }

  /** The travel time used for a restaurant: the caller's figure when the
      map has one; else, when both places have a location, the distance at
      the configured speed in whole minutes (truncated), dividing by a zero
      speed being an error; else 20 minutes. `distance` stands for the
      great-circle distance in miles. */
  function ResolveTravelTime(e: Event, r: Restaurant, travelTimes: map<string, int>, cfg: PairingConfig,
                             distance: (Location, Location) -> real): (t: Result<int, PairingError>)
    ensures r.id in travelTimes ==> t == Success(travelTimes[r.id])
    ensures r.id !in travelTimes && (e.location.None? || r.location.None?) ==> t == Success(20)
    ensures t.Failure? <==>
              r.id !in travelTimes && e.location.Some? && r.location.Some? && cfg.defaultTravelSpeedMph == 0.0
    ensures t.Failure? ==> t.error == ZeroTravelSpeed
    ensures r.id !in travelTimes && e.location.Some? && r.location.Some? && cfg.defaultTravelSpeedMph != 0.0 ==>
              var exact := distance(e.location.value, r.location.value) / cfg.defaultTravelSpeedMph * 60.0;
              exact >= 0.0 ==> 0 <= t.value && t.value as real <= exact < t.value as real + 1.0
  {
    if r.id in travelTimes then Success(travelTimes[r.id])
    else if e.location.Some? && r.location.Some? then
      if cfg.defaultTravelSpeedMph == 0.0 then Failure(ZeroTravelSpeed)
      else Success(TruncToInt(distance(e.location.value, r.location.value) / cfg.defaultTravelSpeedMph * 60.0))
    else Success(20)
  }

  /** The Phase A recommendation built from the windows and the fit. */
  function Recommend(r: Restaurant, w: DiningWindows, f: FitResult): PairingRecommendation {
    PairingRecommendation(
      r.id, f.totalScore, f.breakdown,
      RecommendedWindows(w.preferred, w.fallbacks), w.targetTime,
      true, None, f.reasons)
  }

  /** A Phase A recommendation: pending, no chosen times, availability at 0,
      every window readable by Phase B. */
  ghost predicate Fresh(rec: PairingRecommendation, cfg: PairingConfig) {
    && rec.availabilityPending
    && rec.recommendedAvailableTimes.None?
    && rec.scoreBreakdown.availabilityFit == 0.0
    && rec.score == WeightedTotal(rec.scoreBreakdown, cfg)
    && Readable(DiningWindows(rec.targetTime, rec.recommendedWindows.preferred, rec.recommendedWindows.fallbacks))
  }

  /** The loop body for one restaurant: `None` when it is hard-filtered,
      otherwise a fresh recommendation for it. */
  function Assess(e: Event, r: Restaurant, travelTimes: map<string, int>, cfg: PairingConfig,
                  distance: (Location, Location) -> real): (a: Result<Option<PairingRecommendation>, PairingError>)
    ensures a.Failure? <==> ResolveTravelTime(e, r, travelTimes, cfg, distance).Failure?
    ensures a.Success? ==> (a.value.None? <==> HardFiltered(e, r, cfg))
    ensures a.Success? && a.value.Some? ==> a.value.value.restaurantId == r.id && Fresh(a.value.value, cfg)
  {
    var t :- ResolveTravelTime(e, r, travelTimes, cfg, distance);
    var windows := ComputeDiningWindows(e, t, cfg);
    var fit := ScoreRestaurantFit(e, r, t, cfg);
    if fit.excluded then Success(None)
    else
      assert windows == DiningWindows(windows.targetTime, windows.preferred, windows.fallbacks);
      Success(Some(Recommend(r, windows, fit)))
  }

  /** What the recommendation holds: the windows for the resolved travel
      time and the fit's total, breakdown and reasons. */
  lemma AssessRecommends(e: Event, r: Restaurant, travelTimes: map<string, int>, cfg: PairingConfig,
                         distance: (Location, Location) -> real)
    requires Assess(e, r, travelTimes, cfg, distance).Success?
    requires Assess(e, r, travelTimes, cfg, distance).value.Some?
    ensures var t := ResolveTravelTime(e, r, travelTimes, cfg, distance).value;
            var w := ComputeDiningWindows(e, t, cfg);
            var f := ScoreRestaurantFit(e, r, t, cfg);
            var rec := Assess(e, r, travelTimes, cfg, distance).value.value;
            && rec.targetTime == w.targetTime
            && rec.recommendedWindows == RecommendedWindows(w.preferred, w.fallbacks)
            && rec.score == f.totalScore
            && rec.scoreBreakdown == f.breakdown
            && rec.whyMatched == f.reasons
  {
  }

  /** The positions, from `from` on and in increasing order, of the
      restaurants the hard filter lets through. */
  function AdmittedFrom(e: Event, rs: seq<Restaurant>, cfg: PairingConfig, from: nat): (idx: seq<nat>)
    requires from <= |rs|
    ensures forall k :: 0 <= k < |idx| ==> from <= idx[k] < |rs| && !HardFiltered(e, rs[idx[k]], cfg)
    ensures forall k, l :: 0 <= k < l < |idx| ==> idx[k] < idx[l]
    ensures forall i :: from <= i < |rs| && !HardFiltered(e, rs[i], cfg) ==> i in idx
    decreases |rs| - from
  {
    if from == |rs| then []
    else if HardFiltered(e, rs[from], cfg) then AdmittedFrom(e, rs, cfg, from + 1)
    else [from] + AdmittedFrom(e, rs, cfg, from + 1)
  }

  /** The positions, from `from` on, of the items `keep` holds for. */
  function Positions<A>(xs: seq<A>, keep: A -> bool, from: nat): seq<nat>
    requires from <= |xs|
    decreases |xs| - from
  {
    if from == |xs| then []
    else if keep(xs[from]) then [from] + Positions(xs, keep, from + 1)
    else Positions(xs, keep, from + 1)
  }

  lemma {:induction false} PositionsAreAdmitted(e: Event, rs: seq<Restaurant>, cfg: PairingConfig,
                                                keep: Restaurant -> bool, from: nat)
    requires from <= |rs|
    requires forall r :: keep(r) == !HardFiltered(e, r, cfg)
    ensures Positions(rs, keep, from) == AdmittedFrom(e, rs, cfg, from)
    decreases |rs| - from
  {
    if from < |rs| {
      PositionsAreAdmitted(e, rs, cfg, keep, from + 1);
      var tail := AdmittedFrom(e, rs, cfg, from + 1);
      if HardFiltered(e, rs[from], cfg) {
        assert AdmittedFrom(e, rs, cfg, from) == tail;
      } else {
        assert AdmittedFrom(e, rs, cfg, from) == [from] + tail;
      }
    }
  }

  /** The shape of the Phase A loop over any per-item step `f`: the first
      failing step ends it; otherwise it gathers, in order, the present
      results, which sit exactly at the positions `keep` holds for. */
  function Gather<A(!new), B, E>(xs: seq<A>, f: A -> Result<Option<B>, E>, keep: A -> bool, from: nat): (c: Result<seq<B>, E>)
    requires from <= |xs|
    requires forall x :: f(x).Success? ==> (f(x).value.Some? <==> keep(x))
    ensures c.Failure? <==> exists i :: from <= i < |xs| && f(xs[i]).Failure?
    ensures c.Failure? ==> exists i :: from <= i < |xs| && f(xs[i]) == Failure(c.error)
    ensures c.Success? ==>
              var idx := Positions(xs, keep, from);
              && |c.value| == |idx|
              && forall k :: 0 <= k < |idx| ==> idx[k] < |xs| && f(xs[idx[k]]) == Success(Some(c.value[k]))
    decreases |xs| - from
  {
    if from == |xs| then Success([])
    else
      var a := f(xs[from]);
      var rest := Gather(xs, f, keep, from + 1);
      if a.Failure? then Failure(a.error)
      else if rest.Failure? then Failure(rest.error)
      else if a.value.None? then Success(rest.value)
      else
        var r := [a.value.value] + rest.value;
        assert forall k :: 1 <= k < |r| ==> r[k] == rest.value[k - 1];
        Success(r)
  }

  /** The Phase A loop: it fails exactly when some travel time fails (a zero
      speed); otherwise it yields, for each restaurant the hard filter lets
      through and in input order, one fresh recommendation for it. */
  function Candidates(e: Event, rs: seq<Restaurant>, travelTimes: map<string, int>, cfg: PairingConfig,
                      distance: (Location, Location) -> real): (c: Result<seq<PairingRecommendation>, PairingError>)
    ensures c.Failure? <==> exists i :: 0 <= i < |rs| && ResolveTravelTime(e, rs[i], travelTimes, cfg, distance).Failure?
    ensures c.Failure? ==> c.error == ZeroTravelSpeed
    ensures c.Success? ==>
              var idx := AdmittedFrom(e, rs, cfg, 0);
              && |c.value| == |idx|
              && forall k :: 0 <= k < |idx| ==>
                   && Assess(e, rs[idx[k]], travelTimes, cfg, distance) == Success(Some(c.value[k]))
                   && c.value[k].restaurantId == rs[idx[k]].id
                   && Fresh(c.value[k], cfg)
  {
    var f := (r: Restaurant) => Assess(e, r, travelTimes, cfg, distance);
    var keep := (r: Restaurant) => !HardFiltered(e, r, cfg);
    PositionsAreAdmitted(e, rs, cfg, keep, 0);
    Gather(rs, f, keep, 0)
  }

  /** Every candidate is a restaurant that passes the hard filter. */
  lemma CandidatesAreAdmitted(e: Event, rs: seq<Restaurant>, travelTimes: map<string, int>, cfg: PairingConfig,
                              distance: (Location, Location) -> real)
    ensures var c := Candidates(e, rs, travelTimes, cfg, distance);
            c.Success? ==> forall k :: 0 <= k < |c.value| ==>
              exists i :: 0 <= i < |rs| && rs[i].id == c.value[k].restaurantId && !HardFiltered(e, rs[i], cfg)
  {
    var c := Candidates(e, rs, travelTimes, cfg, distance);
    if c.Success? {
      var idx := AdmittedFrom(e, rs, cfg, 0);
      forall k | 0 <= k < |c.value|
        ensures exists i :: 0 <= i < |rs| && rs[i].id == c.value[k].restaurantId && !HardFiltered(e, rs[i], cfg)
      {
        assert rs[idx[k]].id == c.value[k].restaurantId;
      }
    }
  }

  /** Every restaurant that passes the hard filter is a candidate. */
  lemma CandidatesCoverAdmitted(e: Event, rs: seq<Restaurant>, travelTimes: map<string, int>, cfg: PairingConfig,
                                distance: (Location, Location) -> real)
    ensures var c := Candidates(e, rs, travelTimes, cfg, distance);
            c.Success? ==> forall i :: 0 <= i < |rs| && !HardFiltered(e, rs[i], cfg) ==>
              exists k :: 0 <= k < |c.value| && c.value[k].restaurantId == rs[i].id
  {
    var c := Candidates(e, rs, travelTimes, cfg, distance);
    if c.Success? {
      var idx := AdmittedFrom(e, rs, cfg, 0);
      forall i | 0 <= i < |rs| && !HardFiltered(e, rs[i], cfg)
        ensures exists k :: 0 <= k < |c.value| && c.value[k].restaurantId == rs[i].id
      {
        var k :| 0 <= k < |idx| && idx[k] == i;
        assert c.value[k].restaurantId == rs[i].id;
      }
    }
  }

  /** `rank_restaurants_for_event`: Phase A ranked by the key
      `(-score, -travelTime, restaurantId)`; Phase B applied only when the
      payload list is non-empty. */
  function RankRestaurantsForEvent(e: Event, rs: seq<Restaurant>, travelTimes: map<string, int>, cfg: PairingConfig,
                                   distance: (Location, Location) -> real, payloads: seq<AvailabilityPayload>)
    : (r: Result<seq<PairingRecommendation>, PairingError>)
    ensures Candidates(e, rs, travelTimes, cfg, distance).Failure? ==> r.Failure?
    ensures r.Success? ==> SortedBy(r.value, RankLess)
    ensures r.Success? ==> multiset(Ids(r.value)) == multiset(Ids(Candidates(e, rs, travelTimes, cfg, distance).value))
    ensures |payloads| == 0 && r.Success? ==>
              && multiset(r.value) == multiset(Candidates(e, rs, travelTimes, cfg, distance).value)
              && forall k :: 0 <= k < |r.value| ==> Fresh(r.value[k], cfg)
    ensures |payloads| == 0 && r.Failure? ==> r.error == ZeroTravelSpeed
    ensures |payloads| > 0 && Candidates(e, rs, travelTimes, cfg, distance).Success? ==>
              var updated := UpdateAll(Candidates(e, rs, travelTimes, cfg, distance).value, payloads, cfg);
              && (r.Success? <==> updated.Success?)
              && (r.Success? ==> multiset(r.value) == multiset(updated.value))
  {
    var candidates :- Candidates(e, rs, travelTimes, cfg, distance);
    RankLessIsStrictWeakOrder();
    var ranked := SortBy(candidates, RankLess);
    IdsOfPermutation(ranked, candidates);
    if |payloads| == 0 then
      FreshPermutation(ranked, candidates, cfg);
      Success(ranked)
    else
      UpdateAllPermutation(ranked, candidates, payloads, cfg);
      ApplyAvailability(ranked, payloads, cfg)
  }

  lemma FreshPermutation(a: seq<PairingRecommendation>, b: seq<PairingRecommendation>, cfg: PairingConfig)
    requires multiset(a) == multiset(b)
    requires forall k :: 0 <= k < |b| ==> Fresh(b[k], cfg)
    ensures forall k :: 0 <= k < |a| ==> Fresh(a[k], cfg)
  {
    forall k | 0 <= k < |a|
      ensures Fresh(a[k], cfg)
    {
      assert a[k] in multiset(b);
      var j :| 0 <= j < |b| && b[j] == a[k];
    }
  }

  /** With a non-zero speed nothing in Phase A can fail. */
  lemma PhaseANeverFails(e: Event, rs: seq<Restaurant>, travelTimes: map<string, int>, cfg: PairingConfig,
                         distance: (Location, Location) -> real)
    requires cfg.defaultTravelSpeedMph != 0.0
    ensures RankRestaurantsForEvent(e, rs, travelTimes, cfg, distance, []).Success?
  {
  }

  /** Phase B can only fail on a time a payload offers: the windows and
      targets Phase A writes always read back. */
  lemma PhaseBFailsOnlyOnOfferedTimes(e: Event, rs: seq<Restaurant>, travelTimes: map<string, int>,
                                      cfg: PairingConfig, distance: (Location, Location) -> real,
                                      payloads: seq<AvailabilityPayload>)
    requires cfg.defaultTravelSpeedMph != 0.0
    requires forall p :: p in payloads ==> ParseSlots(p.availableTimes).Some?
    ensures RankRestaurantsForEvent(e, rs, travelTimes, cfg, distance, payloads).Success?
  {
    var candidates := Candidates(e, rs, travelTimes, cfg, distance).value;
    RankLessIsStrictWeakOrder();
    var ranked := SortBy(candidates, RankLess);
    FreshPermutation(ranked, candidates, cfg);
    forall k | 0 <= k < |ranked|
      ensures UpdateOne(ranked[k], payloads, cfg).Success?
    {
      FreshUpdateSucceeds(ranked[k], payloads, cfg);
    }
  }

  /** A recommendation as Phase A writes it survives Phase B whenever every
      payload's offered times parse. */
  lemma FreshUpdateSucceeds(rec: PairingRecommendation, payloads: seq<AvailabilityPayload>, cfg: PairingConfig)
    requires Fresh(rec, cfg)
    requires forall p :: p in payloads ==> ParseSlots(p.availableTimes).Some?
    ensures UpdateOne(rec, payloads, cfg).Success?
  {
    var p := LookupPayload(payloads, rec.restaurantId);
    if p.Some? && |p.value.availableTimes| > 0 {
      var i :| 0 <= i < |payloads| && payloads[i] == p.value
               && forall j :: i < j < |payloads| ==> payloads[j].restaurantId != rec.restaurantId;
      assert p.value in payloads;
      FreshIsReadable(rec, p.value.availableTimes, cfg);
    }
  }

  lemma FreshIsReadable(rec: PairingRecommendation, times: seq<string>, cfg: PairingConfig)
    requires Fresh(rec, cfg) && ParseSlots(times).Some?
    ensures AllReadable(rec, times)
  {
    var w := rec.recommendedWindows;
    var fs := Considered(w.fallbacks);
    forall i | 0 <= i < |fs|
      ensures ParseBounds(fs[i].startTime, fs[i].endTime).Some?
    {
      assert fs[i] == w.fallbacks[i];
    }
  }
}

=== FILE: seqs.dfy ===
/** Sequence helpers: order-preserving filtering (Python list comprehensions
    with an `if`) and the sub-sequence relation that specifies it. */
module Seqs {

  function Min(a: int, b: int): int {
    if a <= b then a else b
  }

  /** `a` is obtained from `b` by deleting elements, keeping the order. */
  ghost predicate IsSubsequence<T>(a: seq<T>, b: seq<T>)
    decreases |b|
  {
    if |a| == 0 then true
    else if |b| == 0 then false
    else (a[0] == b[0] && IsSubsequence(a[1..], b[1..])) || IsSubsequence(a, b[1..])
  }

  /** `[x for x in s if keep(x)]`. */
  function Filter<T(!new)>(s: seq<T>, keep: T -> bool): (r: seq<T>)
    ensures |r| <= |s|
    ensures IsSubsequence(r, s)
    ensures forall x :: x in r <==> x in s && keep(x)
    decreases |s|
  {
    if |s| == 0 then []
    else
      var rest := Filter(s[1..], keep);
      assert s == [s[0]] + s[1..];
      if keep(s[0]) then [s[0]] + rest else rest
  }

  /** Filtering keeps every copy of a kept element and no copy of another. */
  lemma {:induction false} FilterMultiplicity<T(!new)>(s: seq<T>, keep: T -> bool)
    ensures forall x :: multiset(Filter(s, keep))[x] == if keep(x) then multiset(s)[x] else 0
    decreases |s|
  {
    if |s| > 0 {
      FilterMultiplicity(s[1..], keep);
      assert s == [s[0]] + s[1..];
    }
  }

  /** When every element passes, filtering returns the sequence unchanged. */
  lemma {:induction false} FilterKeepsAll<T(!new)>(s: seq<T>, keep: T -> bool)
    requires forall i :: 0 <= i < |s| ==> keep(s[i])
    ensures Filter(s, keep) == s
    decreases |s|
  {
    if |s| > 0 {
      FilterKeepsAll(s[1..], keep);
    }
  }

  /** `[f(x) for x in s]`. */
  function Map<A, B>(s: seq<A>, f: A -> B): (r: seq<B>)
    ensures |r| == |s|
    ensures forall i :: 0 <= i < |s| ==> r[i] == f(s[i])
  {
    seq(|s|, i requires 0 <= i < |s| => f(s[i]))
  }

  /** Mapping two orderings of the same elements gives two orderings of the
      same images. */
  lemma {:induction false} MapPermutation<A, B>(a: seq<A>, b: seq<A>, f: A -> B)
    requires multiset(a) == multiset(b)
    ensures multiset(Map(a, f)) == multiset(Map(b, f))
    decreases |a|
  {
    if |a| == 0 {
      assert |multiset(b)| == 0;
      assert b == [];
    } else {
      var j := IndexOfFirst(a, b);
      var rest := MapRemoveAt(b, j, f);
      MapDropFirst(a, f);
      MultisetCancel(multiset(a[1..]), multiset(rest), a[0]);
      MapPermutation(a[1..], rest, f);
    }
  }

  /** Where the first element of `a` sits in a reordering `b` of it. */
  lemma IndexOfFirst<A>(a: seq<A>, b: seq<A>) returns (j: int)
    requires multiset(a) == multiset(b) && |a| > 0
    ensures 0 <= j < |b| && b[j] == a[0]
  {
    assert a[0] in multiset(a);
    assert a[0] in multiset(b);
    j :| 0 <= j < |b| && b[j] == a[0];
  }

  /** Dropping the first element takes one copy of it, and of its image, out
      of the multisets. */
  lemma MapDropFirst<A, B>(a: seq<A>, f: A -> B)
    requires |a| > 0
    ensures multiset(a) == multiset(a[1..]) + multiset{a[0]}
    ensures multiset(Map(a, f)) == multiset(Map(a[1..], f)) + multiset{f(a[0])}
  {
    assert a == [a[0]] + a[1..];
    var m := Map(a, f);
    assert m == [m[0]] + m[1..];
    assert m[1..] == Map(a[1..], f);
  }

  /** `b` without its element at `j`, which takes one copy of it, and of its
      image, out of the multisets. */
  lemma MapRemoveAt<A, B>(b: seq<A>, j: int, f: A -> B) returns (rest: seq<A>)
    requires 0 <= j < |b|
    ensures multiset(b) == multiset(rest) + multiset{b[j]}
    ensures multiset(Map(b, f)) == multiset(Map(rest, f)) + multiset{f(b[j])}
  {
    rest := b[..j] + b[j + 1..];
    assert b == b[..j] + [b[j]] + b[j + 1..];
    MultisetSplice(b[..j], b[j], b[j + 1..]);
    MapSplice(b, j, f);
  }

  lemma MapSplice<A, B>(b: seq<A>, j: int, f: A -> B)
    requires 0 <= j < |b|
    ensures multiset(Map(b, f)) == multiset(Map(b[..j] + b[j + 1..], f)) + multiset{f(b[j])}
  {
    var m := Map(b, f);
    assert Map(b[..j] + b[j + 1..], f) == m[..j] + m[j + 1..];
    assert m == m[..j] + [m[j]] + m[j + 1..];
    MultisetSplice(m[..j], m[j], m[j + 1..]);
  }

  /** Taking one element out of the middle of a sequence takes one copy of it
      out of its multiset. */
  lemma MultisetSplice<T>(front: seq<T>, x: T, back: seq<T>)
    ensures multiset(front + [x] + back) == multiset(front + back) + multiset{x}
  {
  }

  lemma MultisetCancel<T>(p: multiset<T>, q: multiset<T>, x: T)
    requires p + multiset{x} == q + multiset{x}
    ensures p == q
  {
    assert forall y :: p[y] == (p + multiset{x})[y] - multiset{x}[y];
    assert forall y :: q[y] == (q + multiset{x})[y] - multiset{x}[y];
  }
}

=== FILE: stable_sort.dfy ===
/** Python's `list.sort(key=...)` and `sorted(...)`: a stable sort. It is
    modelled as insertion sort by a strict weak order `less` ("sorts before");
    elements that are tied (neither sorts before the other) keep their input
    order. */
module StableSort {

  /** `less` is asymmetric and "not less" is transitive: the properties of
      `<` on Python sort keys. */
  ghost predicate StrictWeakOrder<T(!new)>(less: (T, T) -> bool) {
    && (forall a, b :: less(a, b) ==> !less(b, a))
    && (forall a, b, c :: !less(a, b) && !less(b, c) ==> !less(a, c))
  }

  /** No element sorts before an earlier one. */
  ghost predicate SortedBy<T>(s: seq<T>, less: (T, T) -> bool) {
    forall i, j :: 0 <= i < j < |s| ==> !less(s[j], s[i])
  }

  predicate Tied<T>(a: T, b: T, less: (T, T) -> bool) {
    !less(a, b) && !less(b, a)
  }

  /** The elements of `s` tied with `k`, in their order in `s`. */
  function Class<T>(s: seq<T>, k: T, less: (T, T) -> bool): seq<T>
    decreases |s|
  {
    if |s| == 0 then []
    else (if Tied(s[0], k, less) then [s[0]] else []) + Class(s[1..], k, less)
  }

  /** Inserts `x` before the first element it does not sort after. */
  function Insert<T>(x: T, s: seq<T>, less: (T, T) -> bool): (r: seq<T>)
    ensures multiset(r) == multiset(s) + multiset{x}
    ensures |r| == |s| + 1
    decreases |s|
  {
    if |s| == 0 then [x]
    else
      assert s == [s[0]] + s[1..];
      if less(s[0], x) then [s[0]] + Insert(x, s[1..], less) else [x] + s
  }

  /** The sorted permutation of `s`; ties keep their input order. */
  function SortBy<T(!new)>(s: seq<T>, less: (T, T) -> bool): (r: seq<T>)
    requires StrictWeakOrder(less)
    ensures multiset(r) == multiset(s)
    ensures |r| == |s|
    ensures SortedBy(r, less)
    decreases |s|
  {
    if |s| == 0 then []
    else
      var rest := SortBy(s[1..], less);
      InsertSorted(s[0], rest, less);
      assert s == [s[0]] + s[1..];
      Insert(s[0], rest, less)
  }

  lemma {:induction false} InsertSorted<T(!new)>(x: T, s: seq<T>, less: (T, T) -> bool)
    requires StrictWeakOrder(less)
    requires SortedBy(s, less)
    ensures SortedBy(Insert(x, s, less), less)
    decreases |s|
  {
    if |s| > 0 {
      if less(s[0], x) {
        var t := Insert(x, s[1..], less);
        InsertSorted(x, s[1..], less);
        var r := [s[0]] + t;
        forall j | 0 < j < |r|
          ensures !less(r[j], s[0])
        {
          assert r[j] in multiset(t);
          assert r[j] in multiset(s[1..]) || r[j] == x;
          if r[j] != x {
            var m :| 0 <= m < |s[1..]| && s[1..][m] == r[j];
            assert s[m + 1] == r[j];
          }
        }
      } else {
        var r := [x] + s;
        forall i, j | 0 <= i < j < |r|
          ensures !less(r[j], r[i])
        {
          if i == 0 && j > 1 {
            assert !less(s[j - 1], s[0]);
          }
        }
      }
    }
  }

  /** Inserting `x` adds it in front of the elements tied with it. */
  lemma {:induction false} InsertClass<T(!new)>(x: T, s: seq<T>, k: T, less: (T, T) -> bool)
    requires StrictWeakOrder(less)
    ensures Class(Insert(x, s, less), k, less)
         == (if Tied(x, k, less) then [x] else []) + Class(s, k, less)
    decreases |s|
  {
    var hx := if Tied(x, k, less) then [x] else [];
    if |s| == 0 {
      assert Class([x], k, less) == hx + Class([x][1..], k, less);
    } else {
      var hs := if Tied(s[0], k, less) then [s[0]] else [];
      assert Class(s, k, less) == hs + Class(s[1..], k, less);
      if less(s[0], x) {
        var t := Insert(x, s[1..], less);
        InsertClass(x, s[1..], k, less);
        var r := [s[0]] + t;
        assert r[0] == s[0] && r[1..] == t;
        assert Class(r, k, less) == hs + Class(t, k, less);
        if Tied(x, k, less) && Tied(s[0], k, less) {
          assert false;
        }
        assert hs + (hx + Class(s[1..], k, less)) == hx + (hs + Class(s[1..], k, less));
      } else {
        var r := [x] + s;
        assert r[0] == x && r[1..] == s;
      }
    }
  }

  /** Stability: the elements tied with any `k` appear in the output in the
      same order as in the input. */
  lemma {:induction false} SortByStable<T(!new)>(s: seq<T>, k: T, less: (T, T) -> bool)
    requires StrictWeakOrder(less)
    ensures Class(SortBy(s, less), k, less) == Class(s, k, less)
    decreases |s|
  {
    if |s| > 0 {
      SortByStable(s[1..], k, less);
      InsertClass(s[0], SortBy(s[1..], less), k, less);
    }
  }

  /** Sorting an already sorted sequence changes nothing. */
  lemma {:induction false} SortBySortedIsIdentity<T(!new)>(s: seq<T>, less: (T, T) -> bool)
    requires StrictWeakOrder(less)
    requires SortedBy(s, less)
    ensures SortBy(s, less) == s
    decreases |s|
  {
    if |s| > 0 {
      assert SortedBy(s[1..], less);
      SortBySortedIsIdentity(s[1..], less);
      if |s| > 1 {
        assert !less(s[1], s[0]);
      }
      assert s == [s[0]] + s[1..];
    }
  }

  lemma {:induction false} ClassOfPrefix<T>(s: seq<T>, n: nat, k: T, less: (T, T) -> bool)
    requires n <= |s|
    ensures Class(s[..n], k, less) <= Class(s, k, less)
    decreases n
  {
    if n > 0 {
      ClassOfPrefix(s[1..], n - 1, k, less);
      assert s[..n][0] == s[0];
      assert s[..n][1..] == s[1..][..n - 1];
    }
  }

  /** `sorted(s, key=...)[:n]`: the first `n` elements of the stable sort.
      They are the `n` least elements; no element left out sorts before a
      chosen one; among tied elements the earliest in the input are chosen. */
  function TakeSmallest<T(!new)>(s: seq<T>, n: nat, less: (T, T) -> bool): (r: seq<T>)
    requires StrictWeakOrder(less)
    ensures |r| == if n <= |s| then n else |s|
    ensures multiset(r) <= multiset(s)
    ensures SortedBy(r, less)
    ensures forall x, i :: x in multiset(s) - multiset(r) && 0 <= i < |r| ==> !less(x, r[i])
    ensures forall k :: Class(r, k, less) <= Class(s, k, less)
  {
    var sorted := SortBy(s, less);
    var m := if n <= |s| then n else |s|;
    PrefixOfSorted(sorted, m, less);
    forall k
      ensures Class(sorted[..m], k, less) <= Class(s, k, less)
    {
      ClassOfPrefix(sorted, m, k, less);
      SortByStable(s, k, less);
    }
    sorted[..m]
  }

  /** A prefix of a sorted sequence is sorted and holds its least elements. */
  lemma PrefixOfSorted<T>(sorted: seq<T>, m: nat, less: (T, T) -> bool)
    requires m <= |sorted|
    requires SortedBy(sorted, less)
    ensures multiset(sorted[..m]) <= multiset(sorted)
    ensures SortedBy(sorted[..m], less)
    ensures forall x, i :: x in multiset(sorted) - multiset(sorted[..m]) && 0 <= i < m
                        ==> !less(x, sorted[i])
  {
    var r := sorted[..m];
    assert sorted == r + sorted[m..];
    assert multiset(sorted) - multiset(r) == multiset(sorted[m..]);
    forall x, i | x in multiset(sorted) - multiset(r) && 0 <= i < m
      ensures !less(x, sorted[i])
    {
      var j :| 0 <= j < |sorted[m..]| && sorted[m..][j] == x;
      assert sorted[m + j] == x;
    }
  }
}

=== FILE: text.dfy ===
/** Text helpers shared by the model: ASCII case mapping, substring search,
    decimal integers as Python's `str`/`int` write and read them, `str.split`
    on one separator character, and Python's code-point order on strings. */
module Text {
  import opened Wrappers

  // ---------------------------------------------------------------- case

  function LowerChar(c: char): char {
    if 'A' <= c <= 'Z' then (c as int + 32) as char else c
  }

  function UpperChar(c: char): char {
    if 'a' <= c <= 'z' then (c as int - 32) as char else c
  }

  /** `str.lower()` restricted to ASCII letters; other characters are kept. */
  function Lower(s: string): (r: string)
    ensures |r| == |s|
    ensures forall i :: 0 <= i < |s| ==> r[i] == LowerChar(s[i])
  {
    if |s| == 0 then "" else [LowerChar(s[0])] + Lower(s[1..])
  }

  /** `str.upper()` restricted to ASCII letters; other characters are kept. */
  function Upper(s: string): (r: string)
    ensures |r| == |s|
    ensures forall i :: 0 <= i < |s| ==> r[i] == UpperChar(s[i])
  {
    if |s| == 0 then "" else [UpperChar(s[0])] + Upper(s[1..])
  }

  lemma LowerIdempotent(s: string)
    ensures Lower(Lower(s)) == Lower(s)
  {
    assert forall i :: 0 <= i < |s| ==> Lower(Lower(s))[i] == Lower(s)[i];
  }

  /** Python's `sub in s` for strings. */
  predicate Contains(s: string, sub: string) {
    exists i :: 0 <= i <= |s| - |sub| && OccursAt(s, sub, i)
  }

  /** `sub` starts at position `i` of `s`. */
  predicate OccursAt(s: string, sub: string, i: int) {
    0 <= i <= |s| - |sub| && s[i..i + |sub|] == sub
  }

  /** The first position at which `sub` occurs in `s` (the index `str.find`
      returns), or `None` where `str.find` returns -1. */
  function Find(s: string, sub: string): (r: Option<nat>)
    ensures r.None? <==> !Contains(s, sub)
    ensures r.Some? ==> OccursAt(s, sub, r.value)
    ensures r.Some? ==> forall j :: 0 <= j < r.value ==> !OccursAt(s, sub, j)
  {
    FindFrom(s, sub, 0)
  }

  function FindFrom(s: string, sub: string, from: nat): (r: Option<nat>)
    ensures r.None? <==> forall j :: from <= j <= |s| - |sub| ==> !OccursAt(s, sub, j)
    ensures r.Some? ==> from <= r.value && OccursAt(s, sub, r.value)
    ensures r.Some? ==> forall j :: from <= j < r.value ==> !OccursAt(s, sub, j)
    decreases |s| - from
  {
    if from > |s| - |sub| then None
    else if OccursAt(s, sub, from) then Some(from)
    else FindFrom(s, sub, from + 1)
  }

  // ------------------------------------------------------------- decimals

  predicate IsDigit(c: char) {
    '0' <= c <= '9'
  }

  predicate IsDigits(s: string) {
    |s| > 0 && forall i :: 0 <= i < |s| ==> IsDigit(s[i])
  }

  function DigitChar(d: int): (c: char)
    requires 0 <= d < 10
    ensures IsDigit(c)
  {
    ('0' as int + d) as char
  }

  /** The value of a string of ASCII digits, most significant first. */
  function DigitsValue(s: string): nat
    requires forall i :: 0 <= i < |s| ==> IsDigit(s[i])
    decreases |s|
  {
    if |s| == 0 then 0
    else
      var d := s[|s| - 1] as int - '0' as int;
      assert IsDigit(s[|s| - 1]);
      DigitsValue(s[..|s| - 1]) * 10 + d
  }

  /** `str(n)` for a non-negative integer. */
  function NatToDecimal(n: nat): (r: string)
    ensures IsDigits(r)
    decreases n
  {
    if n < 10 then [DigitChar(n)] else NatToDecimal(n / 10) + [DigitChar(n % 10)]
  }

  /** `str(n)` / `f"{n}"` for any integer. */
  function IntToDecimal(n: int): string {
    if n < 0 then "-" + NatToDecimal(-n) else NatToDecimal(n)
  }

  /** Python's `int(s)` on an optional sign followed by ASCII digits; anything
      else is a `ValueError`, modelled as `None`. */
  function ParseInt(s: string): Option<int> {
    if |s| > 0 && (s[0] == '-' || s[0] == '+') then
      if IsDigits(s[1..]) then
        Some(if s[0] == '-' then -(DigitsValue(s[1..]) as int) else DigitsValue(s[1..]) as int)
      else None
    else if IsDigits(s) then Some(DigitsValue(s))
    else None
  }

  lemma {:induction false} NatToDecimalValue(n: nat)
    ensures DigitsValue(NatToDecimal(n)) == n
    decreases n
  {
    if n >= 10 {
      NatToDecimalValue(n / 10);
      var p := NatToDecimal(n / 10);
      var s := p + [DigitChar(n % 10)];
      assert s[..|s| - 1] == p;
    }
  }

  /** Writing an integer in decimal and reading it back gives the integer. */
  lemma ParseIntRoundTrip(n: int)
    ensures ParseInt(IntToDecimal(n)) == Some(n)
  {
    if n < 0 {
      var s := IntToDecimal(n);
      assert s[1..] == NatToDecimal(-n);
      NatToDecimalValue(-n);
    } else {
      NatToDecimalValue(n);
    }
  }

  // ---------------------------------------------------------------- split

  /** Python's `s.split(sep)` for a one-character separator. */
  function Split(s: string, sep: char): (parts: seq<string>)
    ensures |parts| >= 1
    ensures forall i :: 0 <= i < |parts| ==> sep !in parts[i]
    decreases |s|
  {
    if |s| == 0 then [""]
    else
      var rest := Split(s[1..], sep);
      if s[0] == sep then [""] + rest
      else [[s[0]] + rest[0]] + rest[1..]
  }

  /** The first part of a split is the longest prefix free of the separator:
      it ends at the end of `s` or just before the first separator. */
  lemma {:induction false} SplitHead(s: string, sep: char)
    ensures |Split(s, sep)[0]| <= |s|
    ensures Split(s, sep)[0] == s[..|Split(s, sep)[0]|]
    ensures |Split(s, sep)[0]| == |s| || s[|Split(s, sep)[0]|] == sep
    decreases |s|
  {
    if |s| > 0 && s[0] != sep {
      SplitHead(s[1..], sep);
    }
  }

  /** `sep.join(parts)`. */
  function Join(parts: seq<string>, sep: char): string
    requires |parts| >= 1
    decreases |parts|
  {
    if |parts| == 1 then parts[0] else parts[0] + [sep] + Join(parts[1..], sep)
  }

  /** Splitting loses nothing: joining the parts gives the string back. */
  lemma {:induction false} SplitJoin(s: string, sep: char)
    ensures Join(Split(s, sep), sep) == s
    decreases |s|
  {
    if |s| > 0 {
      SplitJoin(s[1..], sep);
      var rest := Split(s[1..], sep);
      if s[0] == sep {
        assert ([""] + rest)[1..] == rest;
      } else {
        var parts := [[s[0]] + rest[0]] + rest[1..];
        if |rest| > 1 {
          assert parts[1..] == rest[1..];
        }
      }
    }
  }

  lemma {:induction false} SplitWithoutSeparator(s: string, sep: char)
    requires sep !in s
    ensures Split(s, sep) == [s]
    decreases |s|
  {
    if |s| > 0 {
      assert sep !in s[1..];
      SplitWithoutSeparator(s[1..], sep);
      assert [s[0]] + s[1..] == s;
    }
  }

  lemma {:induction false} SplitAtFirstSeparator(a: string, sep: char, rest: string)
    requires sep !in a
    ensures Split(a + [sep] + rest, sep) == [a] + Split(rest, sep)
    decreases |a|
  {
    if |a| == 0 {
      assert a + [sep] + rest == [sep] + rest;
      assert ([sep] + rest)[1..] == rest;
    } else {
      var s := a + [sep] + rest;
      assert s[0] == a[0];
      assert s[1..] == a[1..] + [sep] + rest;
      assert sep !in a[1..];
      SplitAtFirstSeparator(a[1..], sep, rest);
      assert [a[0]] + a[1..] == a;
    }
  }

  /** Splitting `a + sep + b` where neither part holds the separator gives the
      two parts. */
  lemma SplitTwoParts(a: string, sep: char, b: string)
    requires sep !in a && sep !in b
    ensures Split(a + [sep] + b, sep) == [a, b]
  {
    SplitAtFirstSeparator(a, sep, b);
    SplitWithoutSeparator(b, sep);
  }

  // ---------------------------------------------------------------- order

  /** Python's `a < b` on strings: lexicographic by code point, a proper
      prefix sorting first. */
  predicate LexLess(a: string, b: string)
    decreases |a|
  {
    if |b| == 0 then false
    else if |a| == 0 then true
    else if a[0] != b[0] then a[0] < b[0]
    else LexLess(a[1..], b[1..])
  }

  lemma {:induction false} LexLessIrreflexive(a: string)
    ensures !LexLess(a, a)
    decreases |a|
  {
    if |a| > 0 {
      LexLessIrreflexive(a[1..]);
    }
  }

  lemma {:induction false} LexLessAsymmetric(a: string, b: string)
    ensures LexLess(a, b) ==> !LexLess(b, a)
    decreases |a|
  {
    if |a| > 0 && |b| > 0 && a[0] == b[0] {
      LexLessAsymmetric(a[1..], b[1..]);
    }
  }

  lemma {:induction false} LexLessTransitive(a: string, b: string, c: string)
    requires LexLess(a, b) && LexLess(b, c)
    ensures LexLess(a, c)
    decreases |a|
  {
    if |a| > 0 && a[0] == b[0] && b[0] == c[0] {
      LexLessTransitive(a[1..], b[1..], c[1..]);
    }
  }

  lemma {:induction false} LexLessTotal(a: string, b: string)
    requires a != b
    ensures LexLess(a, b) || LexLess(b, a)
    decreases |a|
  {
    if |a| > 0 && |b| > 0 && a[0] == b[0] {
      assert a == [a[0]] + a[1..] && b == [b[0]] + b[1..];
      LexLessTotal(a[1..], b[1..]);
    }
  }

  /** Not-less is transitive, the property a stable sort needs of its order. */
  lemma LexLessNegativelyTransitive(a: string, b: string, c: string)
    requires !LexLess(a, b) && !LexLess(b, c)
    ensures !LexLess(a, c)
  {
    if a != b && b != c {
      LexLessTotal(a, b);
      LexLessTotal(b, c);
      LexLessTransitive(c, b, a);
      LexLessAsymmetric(c, a);
    }
  }
}

=== FILE: validate.dfy ===
/** Input validation (happenstance/validate.py): keeping the events that fall
    inside a look-ahead window, and checking that every item carries the
    required keys. */
module Validate {
  import opened Wrappers
  import opened Seqs
  import opened Json

  /** Timestamps are whole microseconds, the resolution of Python's
      `datetime`; a day is a fixed number of them (`timedelta(days=...)`
      ignores leap seconds). */
  const MicrosPerDay: int := 86_400_000_000

  /** An event's `date` value after `datetime.fromisoformat`: missing or
      empty, not a valid ISO timestamp, a wall-clock time without an offset,
      or a wall-clock time with its UTC offset (both in microseconds). */
  datatype DateField =
    | NoDate
    | Malformed
    | Naive(wall: int)
    | Aware(wall: int, offset: int)

  /** The absolute instant a date names, in microseconds since the epoch in
      UTC. A date without an offset is read as UTC. */
  function Instant(d: DateField): Option<int> {
    match d
    case NoDate => None
    case Malformed => None
    case Naive(w) => Some(w)
    case Aware(w, off) => Some(w - off)
  }

  /** `now + timedelta(days=days)`. */
  function Cutoff(now: int, days: int): int {
    now + days * MicrosPerDay
  }

  /** The event is kept: its date names an instant within `[now, cutoff]`,
      both ends included. */
  predicate InWindow(d: DateField, now: int, days: int) {
    match Instant(d)
    case None => false
    case Some(t) => now <= t <= Cutoff(now, days)
  }

  /** `filter_events_by_window`, over any event representation from which
      `dateOf` reads the parsed `date` key; `now` is an absolute instant. */
  function FilterEventsByWindow<T(!new)>(events: seq<T>, dateOf: T -> DateField, days: int, now: int): (r: seq<T>)
    ensures IsSubsequence(r, events)
    ensures forall x :: x in r ==>
              && Instant(dateOf(x)).Some?
              && now <= Instant(dateOf(x)).value <= now + days * MicrosPerDay
    ensures forall x :: x in events && Instant(dateOf(x)).Some? ==>
              (now <= Instant(dateOf(x)).value <= now + days * MicrosPerDay ==> x in r)
    ensures forall x :: multiset(r)[x] == if InWindow(dateOf(x), now, days) then multiset(events)[x] else 0
  {
    var keep := x => InWindow(dateOf(x), now, days);
    FilterMultiplicity(events, keep);
    Filter(events, keep)
  }

  /** Events with a missing, empty or unparseable date are never kept. */
  lemma UndatedEventsDropped<T(!new)>(events: seq<T>, dateOf: T -> DateField, days: int, now: int)
    ensures forall x :: x in FilterEventsByWindow(events, dateOf, days, now) ==>
              dateOf(x) != NoDate && dateOf(x) != Malformed
  {
  }

  /** A date without an offset is filtered exactly like the same wall-clock
      time at offset zero. */
  lemma NaiveMeansUtc(wall: int, days: int, now: int)
    ensures InWindow(Naive(wall), now, days) == InWindow(Aware(wall, 0), now, days)
  {
  }

  /** With a negative look-ahead the window is empty and nothing is kept. */
  lemma NegativeWindowKeepsNothing<T(!new)>(events: seq<T>, dateOf: T -> DateField, days: int, now: int)
    requires days < 0
    ensures FilterEventsByWindow(events, dateOf, days, now) == []
  {
  }

  /** Filtering is idempotent: the kept events all lie inside the window. */
  lemma FilterTwiceIsFilterOnce<T(!new)>(events: seq<T>, dateOf: T -> DateField, days: int, now: int)
    ensures var once := FilterEventsByWindow(events, dateOf, days, now);
            FilterEventsByWindow(once, dateOf, days, now) == once
  {
    var once := FilterEventsByWindow(events, dateOf, days, now);
    FilterKeepsAll(once, x => InWindow(dateOf(x), now, days));
  }

  // ------------------------------------------------------------ required keys

  /** The exception `require_fields` raises: the index of the first item that
      lacks a key, its label (`itemLabel`), and the keys it lacks, in
      the order given. */
  datatype MissingFields = MissingFields(index: nat, itemLabel: Value, missing: seq<string>)

  predicate HasAll(item: map<string, Value>, required: seq<string>) {
    forall f :: f in required ==> f in item
  }

  /** `item.get("name") or item.get("title") or "unknown"`. */
  function Label(item: map<string, Value>): (l: Value)
    ensures Truthy(Get(item, "name")) ==> l == item["name"]
    ensures !Truthy(Get(item, "name")) && Truthy(Get(item, "title")) ==> l == item["title"]
    ensures !Truthy(Get(item, "name")) && !Truthy(Get(item, "title")) ==> l == Str("unknown")
  {
    if Truthy(Get(item, "name")) then Get(item, "name")
    else if Truthy(Get(item, "title")) then Get(item, "title")
    else Str("unknown")
  }

  /** `[field for field in required if field not in item]`. */
  function MissingKeys(item: map<string, Value>, required: seq<string>): seq<string> {
    Filter(required, f => f !in item)
  }

  /** `require_fields`: `None` when it returns normally, otherwise the
      `ValueError` it raises, which names the first deficient item. */
  function RequireFields(items: seq<map<string, Value>>, required: seq<string>): (r: Option<MissingFields>)
    ensures r.None? <==> forall i :: 0 <= i < |items| ==> HasAll(items[i], required)
    ensures r.Some? ==>
              && r.value.index < |items|
              && !HasAll(items[r.value.index], required)
              && (forall j :: 0 <= j < r.value.index ==> HasAll(items[j], required))
              && r.value.itemLabel == Label(items[r.value.index])
              && r.value.missing == MissingKeys(items[r.value.index], required)
              && |r.value.missing| > 0
    decreases |items|
  {
    if |items| == 0 then None
    else if !HasAll(items[0], required) then
      Some(MissingFields(0, Label(items[0]), MissingKeys(items[0], required)))
    else
      match RequireFields(items[1..], required)
      case None => None
      case Some(m) => Some(m.(index := m.index + 1))
  }

  /** The reported keys are exactly the required keys the item lacks, in the
      order they are required. */
  lemma MissingKeysAreExact(item: map<string, Value>, required: seq<string>)
    ensures IsSubsequence(MissingKeys(item, required), required)
    ensures forall f :: f in MissingKeys(item, required) <==> f in required && f !in item
    ensures |MissingKeys(item, required)| == 0 <==> HasAll(item, required)
  {
    var m := MissingKeys(item, required);
    if |m| > 0 {
      assert m[0] in m;
    }
  }
}

=== FILE: wrappers.dfy ===
/** Optional values and results with an error, used wherever the modelled
    Python code reads a default with `.get` or raises an exception. */
module Wrappers {

  datatype Option<+T> = None | Some(value: T) {

    /** The value, or `default` when absent (Python's `d.get(k, default)`). */
    function GetOr(default: T): T {
      match this
      case Some(v) => v
      case None => default
    }
  }

  /** A computation that either produced a value or raised an error. */
  datatype Result<+R, +E> = Success(value: R) | Failure(error: E) {

    predicate IsFailure() {
      Failure?
    }

    function PropagateFailure<U>(): Result<U, E>
      requires Failure?
    {
      Failure(error)
    }

    function Extract(): R
      requires Success?
    {
      value
    }
  }
}
